=== FILE: README.md ===
# Strongbox layout providers in Dafny

Strongbox is an artifact repository manager. A *layout provider* knows how
one repository format (Maven, NuGet, npm, ...) arranges its files, and it
is the entry point for reading, writing and deleting artifacts. This project
models the format-independent base class, `AbstractLayoutProvider`, and the
NuGet override, `NugetHierarchicalLayoutProvider`. It then proves
properties of the model.

The model covers:

- **Stream decoration.** `getInputStream` and `getOutputStream` classify
  a path with `isArtifact` before opening it. An output stream computes
  one digest per algorithm of the layout's digest algorithm set that the
  platform supports. An input stream is annotated with the checksums read
  from the companion files `<path>.<extension>`, where the extension is the
  algorithm's name lower-cased with each '-' removed (`x.sha512` for SHA-512). Checksum paths get neither.
  The NuGet layout uses SHA-512 alone and stringifies its digests as Base64.
- **Path classification.** `isServiceFolder` looks for `.temp`, `.trash`
  and `.index` as substrings anywhere in the path. `isArtifact` is strict
  on reads and lenient on writes. The NuGet `isMetadata` is "ends with
  `nuspec`".
- **Deletion.** `delete` leaves a missing path alone and deletes a file
  through `doDeletePath(path, force, true)`. For a directory it walks the
  tree, deletes each file with `doDeletePath(file, force, false)` and
  removes each directory after its contents. `doDeletePath` removes the
  entry. A forced delete, in a repository that allows one, also purges the
  path's copy from the trash. When called with `deleteChecksum` true,
  which happens only for a file deleted directly and never for the files
  the directory walk reaches, the NuGet layout then deletes the
  `<file>.sha512` sibling as well.
- **Trash.** `deleteTrash`, `undelete`, `undeleteTrash` for one
  repository, and the global sweeps over every repository of every storage.

A repository's files are a flat map from resolved paths (sequences of names)
to entries (a file with its bytes, or a directory), together with the
repository's trash. The storage provider behind `Files.delete`,
`deleteTrash(path)` and `restoreTrash(path)` is modelled by the following
contract (the first item is `java.nio`'s; the others describe Strongbox's
storage provider):
- deleting a missing path or a non-empty directory is an error;
- a deleted file's content goes to the trash when the trash is enabled;
- purging drops the trash entries at or below a path;
- restoring brings the trash entries at or below a path back into the tree,
  recreating missing parent directories.

An operation that cannot change anything before it fails returns a
`Result`: a value or an error. One that can throw after changing files, as
the NuGet cascade and the directory walk do, returns an `Outcome`: the files
it leaves behind, together with the error when it raises. A raised outcome
therefore records what was deleted before the exception.

Deletion and restore are modelled as functions over these values. The
directory walk is a trace of steps computed from the tree. The global
sweeps are methods whose loops are proved against a reference definition
(`ApplyToAll`).

## Model

| member | source | states |
|---|---|---|
| Decoration.DecorateOutput | strongbox-storage/strongbox-storage-api/src/main/java/org/carlspring/strongbox/providers/layout/AbstractLayoutProvider.java:155-176 | no algorithm on a checksum path; otherwise exactly the layout's algorithms that the platform supports; the stream keeps its target and coordinates and uses the layout's digest encoding |
| Decoration.AttachAlgorithms | strongbox-storage/strongbox-storage-api/src/main/java/org/carlspring/strongbox/providers/layout/AbstractLayoutProvider.java:162-174 | the one-by-one `forEach` that skips an unsupported algorithm ends with exactly the layout's supported algorithms, and with none on a checksum path |
| Decoration.DecorateInput | strongbox-storage/strongbox-storage-api/src/main/java/org/carlspring/strongbox/providers/layout/AbstractLayoutProvider.java:178-199 | no digest on a checksum path; otherwise a digest for algorithm `a` exactly when `a` is in the layout's set and its companion checksum could be read, and the digest is that checksum |
| Decoration.CollectDigests | strongbox-storage/strongbox-storage-api/src/main/java/org/carlspring/strongbox/providers/layout/AbstractLayoutProvider.java:187-197 | the one-by-one `forEach` that skips unreadable companions ends with the same digest map that `DecorateInput` describes |
| Decoration.CompanionChecksum | strongbox-storage/strongbox-storage-api/src/main/java/org/carlspring/strongbox/providers/layout/AbstractLayoutProvider.java:201-218 | yields a checksum only when the companion path is a readable file, and then the checksum read from it; any failure gives no checksum instead of an error |
| Decoration.ChecksumExtension | strongbox-storage/strongbox-storage-api/src/main/java/org/carlspring/strongbox/providers/layout/AbstractLayoutProvider.java:206 | the extension has no '-' and no upper-case letter; the two lemmas below pin it for every name as the lower-cased name with each '-' removed |
| Decoration.ChecksumExtensionAppend | strongbox-storage/strongbox-storage-api/src/main/java/org/carlspring/strongbox/providers/layout/AbstractLayoutProvider.java:206 | the extension of a concatenated name is the concatenation of the extensions of its parts |
| Decoration.ChecksumExtensionOfChar | strongbox-storage/strongbox-storage-api/src/main/java/org/carlspring/strongbox/providers/layout/AbstractLayoutProvider.java:206 | a single character's extension is empty for '-' and its lower-case form otherwise |
| Decoration.ChecksumPath | strongbox-storage/strongbox-storage-api/src/main/java/org/carlspring/strongbox/providers/layout/AbstractLayoutProvider.java:206 | the companion path is the path, a '.', then the algorithm's extension |
| Decoration.ExtensionOfMd5 | strongbox-storage/strongbox-storage-api/src/main/java/org/carlspring/strongbox/providers/layout/AbstractLayoutProvider.java:206 | "MD5" maps to the extension "md5" |
| Decoration.ExtensionOfSha1 | strongbox-storage/strongbox-storage-api/src/main/java/org/carlspring/strongbox/providers/layout/AbstractLayoutProvider.java:206 | "SHA-1" maps to the extension "sha1" |
| Decoration.ExtensionOfSha512 | strongbox-storage/strongbox-storage-api/src/main/java/org/carlspring/strongbox/providers/layout/AbstractLayoutProvider.java:206 | "SHA-512" maps to the extension "sha512" |
| Decoration.OpenForRead | strongbox-storage/strongbox-storage-api/src/main/java/org/carlspring/strongbox/providers/layout/AbstractLayoutProvider.java:108-120 | opening succeeds exactly when the path is an existing file; it yields that file's bytes, and its coordinates are those of the path when the strict artifact check says "artifact" and absent otherwise |
| Decoration.GetInputStream | strongbox-storage/strongbox-storage-api/src/main/java/org/carlspring/strongbox/providers/layout/AbstractLayoutProvider.java:95-125 | a lookup failure is that error; in an existing repository the stream opens exactly when the path is an existing file; it holds that file's bytes, has the path's coordinates when the strict artifact check says "artifact" and none otherwise, and carries the read decoration of that path |
| Decoration.GetOutputStream | strongbox-storage/strongbox-storage-api/src/main/java/org/carlspring/strongbox/providers/layout/AbstractLayoutProvider.java:127-153 | a lookup failure is that error; in an existing repository, opening fails exactly when the path is a directory, so a new path may be written; the stream targets the resolved path, has the path's coordinates when the lenient artifact check says "artifact" and none otherwise, and is the write decoration of that path |
| Layouts.DefaultDigestAlgorithms | strongbox-storage/strongbox-storage-api/src/main/java/org/carlspring/strongbox/providers/layout/AbstractLayoutProvider.java:220-223 | the default digest algorithm set is exactly {MD5, SHA-1} |
| Layouts.NugetDigestAlgorithms | strongbox-storage/strongbox-storage-api/src/main/java/org/carlspring/strongbox/providers/layout/NugetHierarchicalLayoutProvider.java:107-111 | the NuGet digest algorithm set is exactly {SHA-512} |
| Text.Contains | strongbox-storage/strongbox-storage-api/src/main/java/org/carlspring/strongbox/providers/layout/AbstractLayoutProvider.java:232-245 | `contains` is true exactly when the needle occurs at some index of the string |
| Layouts.IsServiceFolder | strongbox-storage/strongbox-storage-api/src/main/java/org/carlspring/strongbox/providers/layout/AbstractLayoutProvider.java:267-270 | a path is a service folder exactly when ".trash", ".temp" or ".index" occurs anywhere in it |
| Layouts.IsArtifact | strongbox-storage/strongbox-storage-api/src/main/java/org/carlspring/strongbox/providers/layout/AbstractLayoutProvider.java:247-265 | a missing path is an error only in strict mode; an existing directory is always an error; otherwise the answer is "not metadata, not a checksum, not in a service folder" |
| Properties.NuspecNeverArtifact | strongbox-storage/strongbox-storage-api/src/main/java/org/carlspring/strongbox/providers/layout/NugetHierarchicalLayoutProvider.java:61-65 | under the NuGet layout a path ending in "nuspec" is never an artifact, strict or not |
| Layouts.Register | strongbox-storage/strongbox-storage-api/src/main/java/org/carlspring/strongbox/providers/layout/NugetHierarchicalLayoutProvider.java:41-47 | after `register()` the registry maps the provider's alias to it and every other alias keeps its provider |
| Layouts.NugetRegistration | strongbox-storage/strongbox-storage-api/src/main/java/org/carlspring/strongbox/providers/layout/NugetHierarchicalLayoutProvider.java:39-53 | the NuGet provider is registered under "Nuget Hierarchical", the same string `getAlias()` returns |
| Layouts.NugetDeleteMetadata | strongbox-storage/strongbox-storage-api/src/main/java/org/carlspring/strongbox/providers/layout/NugetHierarchicalLayoutProvider.java:67-74 | NuGet `deleteMetadata` leaves the configuration unchanged |
| Deletion.BaseDoDeletePath | strongbox-storage/strongbox-storage-api/src/main/java/org/carlspring/strongbox/providers/layout/AbstractLayoutProvider.java:395-408 | fails exactly when `Files.delete` fails; on success only the path leaves the tree; a permitted forced delete drops exactly the trash entries at or below the path and keeps the content of the others; otherwise the trash gains the file's content when the trash is enabled, or stays the same |
| Deletion.DoDeletePath | strongbox-storage/strongbox-storage-api/src/main/java/org/carlspring/strongbox/providers/layout/NugetHierarchicalLayoutProvider.java:76-88 | a failure of the first deletion is raised with the files unchanged; once the first deletion succeeds the path is gone, even when the cascade then raises; without the checksum cascade the NuGet layout behaves as the base class |
| Deletion.NugetCascade | strongbox-storage/strongbox-storage-api/src/main/java/org/carlspring/strongbox/providers/layout/NugetHierarchicalLayoutProvider.java:82-87 | with `deleteChecksum`, a NuGet file and its `.sha512` sibling both leave the tree and nothing else does; a permitted forced delete drops exactly the trash entries below either and keeps the content of the others; otherwise the trash changes as two single deletions would change it |
| Deletion.NugetNoCascade | strongbox-storage/strongbox-storage-api/src/main/java/org/carlspring/strongbox/providers/layout/NugetHierarchicalLayoutProvider.java:84-87 | without `deleteChecksum`, the NuGet layout removes only the file, just as the base class does |
| Deletion.NugetCascadeWithoutSibling | strongbox-storage/strongbox-storage-api/src/main/java/org/carlspring/strongbox/providers/layout/NugetHierarchicalLayoutProvider.java:82-87 | with `deleteChecksum`, deleting a NuGet file that has no `.sha512` sibling raises "no such file" for the sibling only after the file itself is deleted: the files left behind are the base deletion of the file, with the file gone from the tree and, under a soft delete with the trash enabled, its content in the trash |
| Removal.CascadeFailureIsPartialRemoval | strongbox-storage/strongbox-storage-api/src/main/java/org/carlspring/strongbox/providers/layout/NugetHierarchicalLayoutProvider.java:82-87 | the failing NuGet cascade leaves behind exactly the removal of the file alone, with the file's content swept into the trash as a single deletion would sweep it |
| Deletion.ForceWithoutPermissionKeepsTrash | strongbox-storage/strongbox-storage-api/src/main/java/org/carlspring/strongbox/providers/layout/AbstractLayoutProvider.java:404-407 | with the trash enabled, a forced delete in a repository that does not allow one keeps the file's content in the trash |
| Repositories.DeleteEntry | strongbox-storage/strongbox-storage-api/src/main/java/org/carlspring/strongbox/providers/layout/AbstractLayoutProvider.java:400 | `Files.delete` fails on a missing path and on a non-empty directory; otherwise only the entry leaves the tree, and a file's content goes to an enabled trash |
| Repositories.PurgeTrash | strongbox-storage/strongbox-storage-api/src/main/java/org/carlspring/strongbox/providers/layout/AbstractLayoutProvider.java:406 | the tree is unchanged, and exactly the trash entries at or below the path are dropped |
| Repositories.RestoreTrash | strongbox-storage/strongbox-storage-api/src/main/java/org/carlspring/strongbox/providers/layout/AbstractLayoutProvider.java:458 | every trashed file at or below the path returns with its content and leaves the trash; other trash entries and live entries stay; every new entry is a restored file or a directory above one |
| Repositories.RestorePreservesValid | strongbox-storage/strongbox-storage-api/src/main/java/org/carlspring/strongbox/providers/layout/AbstractLayoutProvider.java:458 | a restore whose trashed files fit back (none is the root, none lands on a live directory or below a live file, none lies below another) keeps the root a directory and every entry inside a present directory |
| Repositories.FindRepository | strongbox-storage/strongbox-storage-api/src/main/java/org/carlspring/strongbox/providers/layout/AbstractLayoutProvider.java:351-352 | an unknown storage and an unknown repository are distinct errors; on success the result is the repository filed under the given ids |
| WalkOrder.WalkOrder | strongbox-storage/strongbox-storage-api/src/main/java/org/carlspring/strongbox/providers/layout/AbstractLayoutProvider.java:370-389 | the walk of a directory ends with the directory itself, visits exactly the files below it and post-visits exactly the directories at or below it, never repeats a step, and post-visits a directory only after everything below it |
| WalkExecution.WalkDirectoryRuns | strongbox-storage/strongbox-storage-api/src/main/java/org/carlspring/strongbox/providers/layout/AbstractLayoutProvider.java:370-389 | the walk never fails on a well-formed tree; it removes exactly the directory's subtree; the trash changes as if each file in it had been deleted one by one |
| Removal.Delete | strongbox-storage/strongbox-storage-api/src/main/java/org/carlspring/strongbox/providers/layout/AbstractLayoutProvider.java:344-393 | a missing path is left alone; a directory, or a file outside the NuGet layout, loses its whole subtree; a NuGet file with a `.sha512` sibling file loses both; a NuGet file without a sibling raises "no such file" for the sibling, leaving the file already removed; on success nothing at or below the path remains, and the path itself is gone whatever the outcome |
| Removal.DeleteIn | strongbox-storage/strongbox-storage-api/src/main/java/org/carlspring/strongbox/providers/layout/AbstractLayoutProvider.java:344-362 | lookup errors are raised with the configuration unchanged; otherwise the repository's new files are exactly what `Delete` leaves, raised or not, and the call raises exactly when `Delete` does, with its error; a missing path changes nothing; afterwards the path no longer exists; other repositories and all ids and policies are untouched |
| Removal.Exists | strongbox-storage/strongbox-storage-api/src/main/java/org/carlspring/strongbox/providers/layout/AbstractLayoutProvider.java:496-523 | lookup errors are reported; otherwise true exactly when the resolved path is present |
| Removal.DeleteTrashIn | strongbox-storage/strongbox-storage-api/src/main/java/org/carlspring/strongbox/providers/layout/AbstractLayoutProvider.java:410-422 | lookup errors are reported; otherwise the repository's trash is emptied, its tree is kept, and nothing else changes |
| Removal.DeleteAllTrash | strongbox-storage/strongbox-storage-api/src/main/java/org/carlspring/strongbox/providers/layout/AbstractLayoutProvider.java:424-442 | every repository of every storage has its trash emptied and its tree, id and policy kept, including repositories that do not allow deletion; the result equals the reference sweep |
| Removal.SweepAll | strongbox-storage/strongbox-storage-api/src/main/java/org/carlspring/strongbox/providers/layout/AbstractLayoutProvider.java:428-441 | the loop over storages equals the reference sweep that applies the operation to every repository of every storage |
| Removal.SweepStorage | strongbox-storage/strongbox-storage-api/src/main/java/org/carlspring/strongbox/providers/layout/AbstractLayoutProvider.java:432-440 | the loop over one storage's repositories equals applying the operation to each of them |
| Removal.UndeleteIn | strongbox-storage/strongbox-storage-api/src/main/java/org/carlspring/strongbox/providers/layout/AbstractLayoutProvider.java:444-459 | lookup errors are reported; otherwise the trashed files at or below the path return with their content, exactly the other trash entries remain with their content, live entries the restore does not overwrite are kept, every missing parent directory of a restored file is recreated, every new entry is a restored file or a directory above one, and other repositories are untouched |
| Removal.UndeleteTrashIn | strongbox-storage/strongbox-storage-api/src/main/java/org/carlspring/strongbox/providers/layout/AbstractLayoutProvider.java:461-478 | lookup errors are reported; otherwise every trashed file returns with its content and the trash is left empty, even when the repository's trash is disabled; live entries the trash does not overwrite are kept; every missing parent directory of a restored file is recreated; every new entry is a restored file or a directory above one; other repositories are untouched |
| Removal.UndeleteAllTrash | strongbox-storage/strongbox-storage-api/src/main/java/org/carlspring/strongbox/providers/layout/AbstractLayoutProvider.java:480-494 | every repository of every storage gets back all its trashed files, keeps its live files, and ends with an empty trash; the result equals the reference sweep |
| Removal.EmptyTrash | strongbox-storage/strongbox-storage-api/src/main/java/org/carlspring/strongbox/providers/layout/AbstractLayoutProvider.java:421 | one repository's trash emptied and its tree kept |
| Removal.RestoreAll | strongbox-storage/strongbox-storage-api/src/main/java/org/carlspring/strongbox/providers/layout/AbstractLayoutProvider.java:477 | every trashed file of one repository returns; live files the trash does not shadow are kept; every missing parent directory of a restored file is recreated; every new entry is a restored file or a directory; the trash is left empty |
| Properties.SoftDeleteThenUndelete | strongbox-storage/strongbox-storage-api/src/main/java/org/carlspring/strongbox/providers/layout/AbstractLayoutProvider.java:395-408 | after a soft delete, `undelete` of the same path brings back every file that was at or below it, with its content |
| Properties.ForcedDeleteIsPermanent | strongbox-storage/strongbox-storage-api/src/main/java/org/carlspring/strongbox/providers/layout/AbstractLayoutProvider.java:404-407 | after a permitted forced delete, no trash entry lies at or below a deleted file, so `undelete` cannot bring it back |
| Properties.DeleteRemoves | strongbox-storage/strongbox-storage-api/src/main/java/org/carlspring/strongbox/providers/layout/AbstractLayoutProvider.java:344-393 | for an existing directory, for an existing file outside the NuGet layout, and for an existing NuGet file whose `.sha512` sibling is a file, `delete` removes a set of entries that contains the whole subtree of the path (a missing path, and a NuGet file whose sibling is missing or a directory, are not covered) |
| Properties.DeletePreservesValid | strongbox-storage/strongbox-storage-api/src/main/java/org/carlspring/strongbox/providers/layout/AbstractLayoutProvider.java:344-393 | a delete, whether it completes or raises, leaves the root a directory and every remaining entry inside a present directory |
| Properties.DeleteEntryKeepsValid | strongbox-storage/strongbox-storage-api/src/main/java/org/carlspring/strongbox/providers/layout/AbstractLayoutProvider.java:400 | `Files.delete` never leaves an entry without its parent directory |
| Properties.DeleteTwice | strongbox-storage/strongbox-storage-api/src/main/java/org/carlspring/strongbox/providers/layout/AbstractLayoutProvider.java:358-362 | deleting the same path a second time succeeds and changes nothing |
| Properties.CompanionIsCascadeSibling | strongbox-storage/strongbox-storage-api/src/main/java/org/carlspring/strongbox/providers/layout/NugetHierarchicalLayoutProvider.java:82 | the SHA-512 companion the read decoration consults is the same `.sha512` sibling the NuGet cascade deletes |
| Properties.NugetReadsCascadeSibling | strongbox-storage/strongbox-storage-api/src/main/java/org/carlspring/strongbox/providers/layout/NugetHierarchicalLayoutProvider.java:107-111 | a NuGet input stream carries at most a SHA-512 digest, and carries it exactly when the `.sha512` sibling is a readable checksum file |
| Properties.NugetWriteDecoration | strongbox-storage/strongbox-storage-api/src/main/java/org/carlspring/strongbox/providers/layout/NugetHierarchicalLayoutProvider.java:90-99 | a NuGet output stream uses Base64, computes SHA-512 exactly when the platform supports it, and computes nothing for a checksum path |
| Properties.DeleteAllTrashIdempotent | strongbox-storage/strongbox-storage-api/src/main/java/org/carlspring/strongbox/providers/layout/AbstractLayoutProvider.java:424-442 | emptying every trash a second time changes nothing |
| Properties.UndeleteAllTrashIdempotent | strongbox-storage/strongbox-storage-api/src/main/java/org/carlspring/strongbox/providers/layout/AbstractLayoutProvider.java:480-494 | restoring every trash a second time changes nothing |
| Properties.RestoreAllPreservesValid | strongbox-storage/strongbox-storage-api/src/main/java/org/carlspring/strongbox/providers/layout/AbstractLayoutProvider.java:477 | `undeleteTrash` of a repository keeps the tree's shape when every trashed file fits back |
| Properties.DeleteAllTrashVisitsEachRepository | strongbox-storage/strongbox-storage-api/src/main/java/org/carlspring/strongbox/providers/layout/AbstractLayoutProvider.java:428-441 | when every storage and repository is filed under its own id, the per-repository `deleteTrash` the sweep calls with the carried ids empties exactly the visited repository, as the reference sweep does |
| Properties.UndeleteAllTrashVisitsEachRepository | strongbox-storage/strongbox-storage-api/src/main/java/org/carlspring/strongbox/providers/layout/AbstractLayoutProvider.java:484-494 | when every storage and repository is filed under its own id, the per-repository `undeleteTrash` the sweep calls with the carried ids restores exactly the visited repository, as the reference sweep does |
| Properties.RestoreNothing | strongbox-storage/strongbox-storage-api/src/main/java/org/carlspring/strongbox/providers/layout/AbstractLayoutProvider.java:461-478 | restoring from an empty trash leaves the repository as it was |

## Left out

- Spring wiring, `@PostConstruct`, logging and the debug/warning messages are not modelled.
- Byte streaming and digest computation are not modelled. A stream is the record of its decoration: target, coordinates, algorithms or digests, and encoding. The digests themselves are opaque.
- `ArtifactFileUtils.isChecksum`, `MessageDigestUtils.readChecksumFile` and whether the JVM supports a digest algorithm are parameters (`Environment`). Their code is not part of this model.
- Base64 and hexadecimal encoding internals are not modelled. Only which stringifier an output stream gets is modelled.
- The storage and file-system providers (`StorageProvider`, `RepositoryFileSystemProvider`) are not part of this model. Their `delete`, `deleteTrash(path)` and `restoreTrash(path)` are the abstract updates described above.
- Provider I/O failures during purge and restore are not modelled: purge and restore always succeed.
- `getArtifactCoordinates` and the coordinates classes are not modelled. An artifact's coordinates are its path.
- Path resolution splits on '/' and drops empty segments. It gives no meaning to "..", "." or absolute paths.
- The order in which a directory listing yields entries is modelled as a fixed but arbitrary choice. The walk properties hold for every choice.
- `copy` and `move` are empty in Strongbox's code and are not modelled.
- The layout-provider registry is a map from alias to layout. Its thread safety is not modelled.
- Text.Lower: lower-cases ASCII letters only, because digest algorithm names are ASCII.
- The nested decoration of the companion stream opened by `getChecksum` is not modelled. Its digests are discarded and its failures are swallowed, so it cannot change the outer result.
- Removal.Delete: requires a well-formed tree, in which every entry's parent is a present directory, as any real file system provides.
- Removal.DeleteIn: requires every repository's tree to be well formed, for the same reason.
- Removal.Delete: does not state the result of the NuGet cascade when the `.sha512` sibling exists but is a directory.
- The global sweeps address repositories by their configuration keys. Strongbox's code calls the per-repository operation with the ids that `storage.getId()` and `repository.getId()` return; the two agree under `ConsistentIds`, which the sweep lemmas assume. A configuration that files a repository under a different id is not modelled.
- Exceptions thrown inside the global sweeps are not modelled. The per-repository operations cannot fail on a repository taken from the configuration.
- Concurrency is not modelled: concurrent deletes, and the file-system races of the walk.
- Some descriptions of the system say the global `deleteTrash()` skips repositories that do not allow deletion. The code only logs a warning and empties their trash too, and the model follows the code. Likewise `undeleteTrash` restores even when the repository's trash is disabled.
- A permitted forced delete of a directory purges the trash entries at or below each deleted file. It does not purge those that lie only below the directory, because Strongbox's code purges per file and never for the directory.
- Repositories.RestorePreservesValid: promises the tree's shape only for a restore whose trashed files fit back. A trashed file that lands on a live directory, below a live file, or below another trashed file would leave an entry whose parent is a file; what the storage provider does in that case is not part of this model.

=== FILE: decoration.dfy ===
/** The checksum decoration pipeline: which digest algorithms an output
    stream computes, which companion checksum files an input stream is
    annotated from, and the `getInputStream`/`getOutputStream` entry points
    that classify a path before decorating it. Bytes and digest computation
    are not modelled; a stream is the record of its decoration. */
module Decoration {
  import opened Wrappers
  import opened Text
  import opened Paths
  import opened Repositories
  import opened Layouts

  /** The coordinates `getArtifactCoordinates(path)` builds; their structure
      is not part of this model. */
  datatype Coordinates = Coordinates(path: string)

  /** An `ArtifactInputStream`: the file's bytes, the coordinates (absent for
      a non-artifact) and the digests read from companion files. */
  datatype ArtifactInputStream = ArtifactInputStream(
    coordinates: Option<Coordinates>,
    content: Content,
    digests: map<string, string>)

  /** An `ArtifactOutputStream`: where it writes, the coordinates, the digest
      algorithms it computes while bytes pass through, and how it will
      stringify the finished digests. */
  datatype ArtifactOutputStream = ArtifactOutputStream(
    target: Path,
    coordinates: Option<Coordinates>,
    algorithms: set<string>,
    encoding: DigestEncoding)

  /** The file-name extension of an algorithm's checksum file:
      `algorithm.toLowerCase().replaceAll("-", "")`. */
  function ChecksumExtension(algorithm: string): (e: string)
    ensures '-' !in e
    ensures forall i :: 0 <= i < |e| ==> !('A' <= e[i] <= 'Z')
  {
    var lower := Lower(algorithm);
    LowerHasNoUpper(algorithm);
    WithoutKeepsNoUpper(lower, '-');
    Without(lower, '-')
  }

  lemma LowerHasNoUpper(s: string)
    ensures forall i :: 0 <= i < |Lower(s)| ==> !('A' <= Lower(s)[i] <= 'Z')
  {
  }

  lemma {:induction false} WithoutKeepsNoUpper(s: string, x: char)
    requires forall i :: 0 <= i < |s| ==> !('A' <= s[i] <= 'Z')
    ensures forall i :: 0 <= i < |Without(s, x)| ==> !('A' <= Without(s, x)[i] <= 'Z')
  {
    if s != [] {
      WithoutKeepsNoUpper(s[1..], x);
    }
  }

  /** The extension is built character by character, in order: the
      extension of a concatenation is the concatenation of the extensions ... */
  lemma ChecksumExtensionAppend(a: string, b: string)
    ensures ChecksumExtension(a + b) == ChecksumExtension(a) + ChecksumExtension(b)
  {
    assert Lower(a + b) == Lower(a) + Lower(b);
    WithoutAppend(Lower(a), Lower(b), '-');
  }

  /** ... and a single character contributes nothing when it is '-' and its
      lower-case form otherwise. */
  lemma ChecksumExtensionOfChar(ch: char)
    ensures ChecksumExtension([ch]) == if ch == '-' then "" else [LowerChar(ch)]
  {
    assert Lower([ch]) == [LowerChar(ch)];
    assert [LowerChar(ch)][1..] == [];
  }

  /** `getChecksum`'s companion path: `path + "." + extension`. */
  function ChecksumPath(path: string, algorithm: string): (c: string)
    ensures |c| == |path| + 1 + |ChecksumExtension(algorithm)|
    ensures c[..|path|] == path
    ensures c[|path|..] == "." + ChecksumExtension(algorithm)
  {
    path + "." + ChecksumExtension(algorithm)
  }

  /** The algorithm names the layouts use map to the customary extensions:
      "MD5" to "md5", "SHA-1" to "sha1", "SHA-512" to "sha512". */
  lemma ExtensionOfMd5()
    ensures ChecksumExtension("MD5") == "md5"
  {
    LowerOfName("MD5", "md5");
    assert Without("md5", '-') == "md5";
  }

  lemma ExtensionOfSha1()
    ensures ChecksumExtension("SHA-1") == "sha1"
  {
    LowerOfName("SHA-1", "sha-1");
    assert "sha-1" == "sha" + ['-'] + "1";
    WithoutOneSeparator("sha", "1", '-');
    assert "sha" + "1" == "sha1";
  }

  lemma ExtensionOfSha512()
    ensures ChecksumExtension("SHA-512") == "sha512"
  {
    LowerOfSha512();
    WithoutOfSha512();
  }

  lemma WithoutOfSha512()
    ensures Without("sha-512", '-') == "sha512"
  {
    assert "sha-512" == "sha" + ['-'] + "512";
    WithoutOneSeparator("sha", "512", '-');
    assert "sha" + "512" == "sha512";
  }

  lemma WithoutOneSeparator(a: string, b: string, x: char)
    requires x !in a && x !in b
    ensures Without(a + [x] + b, x) == a + b
  {
    WithoutAppend(a + [x], b, x);
    WithoutAppend(a, [x], x);
  }

  lemma LowerOfSha512()
    ensures Lower("SHA-512") == "sha-512"
  {
    var s := "SHA-512";
    assert LowerChar(s[0]) == 's' && LowerChar(s[1]) == 'h' && LowerChar(s[2]) == 'a';
    assert LowerChar(s[3]) == '-' && LowerChar(s[4]) == '5' && LowerChar(s[5]) == '1' && LowerChar(s[6]) == '2';
    LowerOfName(s, "sha-512");
  }

  lemma LowerOfName(s: string, expected: string)
    requires |s| == |expected|
    requires forall i :: 0 <= i < |s| ==> LowerChar(s[i]) == expected[i]
    ensures Lower(s) == expected
  {
  }

  /** `getInputStream` up to the point where the raw stream is opened: a
      strict `isArtifact` check (missing path or directory is an error), the
      coordinates for an artifact, and the file's bytes. */
  function OpenForRead(l: Layout, env: Environment, f: RepositoryFiles, path: string): (r: Result<(Option<Coordinates>, Content)>)
    ensures r.Success? <==> Resolve(path) in f.tree && f.tree[Resolve(path)].File?
    ensures r.Success? ==> r.value.1 == f.tree[Resolve(path)].content
    ensures r.Success? ==> (r.value.0.Some? <==> IsArtifact(l, env, f, path, true) == Success(true))
    ensures r.Success? ==> r.value.0 == (if IsArtifact(l, env, f, path, true) == Success(true) then Some(Coordinates(path)) else None)
  {
    var artifact :- IsArtifact(l, env, f, path, true);
    var coordinates := if artifact then Some(Coordinates(path)) else None;
    Success((coordinates, f.tree[Resolve(path)].content))
  }

  /** `getChecksum`: reads the companion checksum file through the ordinary
      read path; any failure (missing file, directory, unreadable content)
      yields `None` rather than an error. */
  function CompanionChecksum(l: Layout, env: Environment, f: RepositoryFiles, path: string, algorithm: string): (r: Option<string>)
    ensures var cp := Resolve(ChecksumPath(path, algorithm));
            r.Some? ==> cp in f.tree && f.tree[cp].File? && env.readChecksumFile(f.tree[cp].content) == r
    ensures var cp := Resolve(ChecksumPath(path, algorithm));
            cp in f.tree && f.tree[cp].File? ==> r == env.readChecksumFile(f.tree[cp].content)
  {
    match OpenForRead(l, env, f, ChecksumPath(path, algorithm))
    case Failure(_) => None
    case Success((_, content)) => env.readChecksumFile(content)
  }

  /** The write decoration: no algorithm for a checksum path; otherwise every
      algorithm of the layout's set that the platform supports (an
      unsupported one is skipped, not fatal). */
  function DecorateOutput(l: Layout, env: Environment, path: string, target: Path, coordinates: Option<Coordinates>): (s: ArtifactOutputStream)
    ensures s.target == target && s.coordinates == coordinates && s.encoding == Encoding(l)
    ensures env.isChecksum(path) ==> s.algorithms == {}
    ensures !env.isChecksum(path) ==>
              forall a :: a in s.algorithms <==> a in DigestAlgorithmSet(l) && env.algorithmSupported(a)
  {
    var algorithms := if env.isChecksum(path) then {}
                      else set a | a in DigestAlgorithmSet(l) && env.algorithmSupported(a);
    ArtifactOutputStream(target, coordinates, algorithms, Encoding(l))
  }

  /** The read decoration: no digests for a checksum path; otherwise one
      digest per algorithm of the layout's set whose companion file could be
      read, and nothing for those that could not. */
  function DecorateInput(l: Layout, env: Environment, f: RepositoryFiles, path: string, content: Content, coordinates: Option<Coordinates>): (s: ArtifactInputStream)
    ensures s.content == content && s.coordinates == coordinates
    ensures env.isChecksum(path) ==> s.digests == map[]
    ensures !env.isChecksum(path) ==>
              forall a :: a in s.digests <==> a in DigestAlgorithmSet(l) && CompanionChecksum(l, env, f, path, a).Some?
    ensures forall a :: a in s.digests ==> Some(s.digests[a]) == CompanionChecksum(l, env, f, path, a)
  {
    var digests := if env.isChecksum(path) then map[]
                   else map a | a in DigestAlgorithmSet(l) && CompanionChecksum(l, env, f, path, a).Some?
                          :: CompanionChecksum(l, env, f, path, a).value;
    ArtifactInputStream(coordinates, content, digests)
  }

  /** The `forEach` of the write decoration, one algorithm at a time; an
      unsupported algorithm is caught and skipped. */
  method AttachAlgorithms(l: Layout, env: Environment, path: string) returns (attached: set<string>)
    ensures env.isChecksum(path) ==> attached == {}
    ensures !env.isChecksum(path) ==>
              forall a :: a in attached <==> a in DigestAlgorithmSet(l) && env.algorithmSupported(a)
  {
    attached := {};
    if env.isChecksum(path) {
      return;
    }
    var pending := DigestAlgorithmSet(l);
    while pending != {}
      invariant pending <= DigestAlgorithmSet(l)
      invariant forall a :: a in attached <==>
                  a in DigestAlgorithmSet(l) && a !in pending && env.algorithmSupported(a)
      decreases pending
    {
      var a :| a in pending;
      if env.algorithmSupported(a) {
        attached := attached + {a};
      }
      pending := pending - {a};
    }
  }

  /** The `forEach` of the read decoration, one algorithm at a time; a
      companion that cannot be read leaves no entry. */
  method CollectDigests(l: Layout, env: Environment, f: RepositoryFiles, path: string) returns (digests: map<string, string>)
    ensures env.isChecksum(path) ==> digests == map[]
    ensures !env.isChecksum(path) ==>
              forall a :: a in digests <==> a in DigestAlgorithmSet(l) && CompanionChecksum(l, env, f, path, a).Some?
    ensures forall a :: a in digests ==> Some(digests[a]) == CompanionChecksum(l, env, f, path, a)
  {
    digests := map[];
    if env.isChecksum(path) {
      return;
    }
    var pending := DigestAlgorithmSet(l);
    while pending != {}
      invariant pending <= DigestAlgorithmSet(l)
      invariant forall a :: a in digests <==>
                  a in DigestAlgorithmSet(l) && a !in pending && CompanionChecksum(l, env, f, path, a).Some?
      invariant forall a :: a in digests ==> Some(digests[a]) == CompanionChecksum(l, env, f, path, a)
      decreases pending
    {
      var a :| a in pending;
      var checksum := CompanionChecksum(l, env, f, path, a);
      if checksum.Some? {
        digests := digests[a := checksum.value];
      }
      pending := pending - {a};
    }
  }

  /** `getInputStream(storageId, repositoryId, path)`. */
  function GetInputStream(l: Layout, env: Environment, c: Configuration, storageId: string, repositoryId: string, path: string): (r: Result<ArtifactInputStream>)
    ensures FindRepository(c, storageId, repositoryId).Failure? ==> r == Failure(FindRepository(c, storageId, repositoryId).error)
    ensures FindRepository(c, storageId, repositoryId).Success? ==>
              var f := FindRepository(c, storageId, repositoryId).value.files;
              (r.Success? <==> Resolve(path) in f.tree && f.tree[Resolve(path)].File?)
    ensures r.Success? ==>
              var f := FindRepository(c, storageId, repositoryId).value.files;
              && Resolve(path) in f.tree && f.tree[Resolve(path)] == File(r.value.content)
              && (r.value.coordinates.Some? <==> IsArtifact(l, env, f, path, true) == Success(true))
              && r.value.coordinates == (if IsArtifact(l, env, f, path, true) == Success(true) then Some(Coordinates(path)) else None)
              && r.value == DecorateInput(l, env, f, path, r.value.content, r.value.coordinates)
  {
    var repository :- FindRepository(c, storageId, repositoryId);
    var raw :- OpenForRead(l, env, repository.files, path);
    Success(DecorateInput(l, env, repository.files, path, raw.1, raw.0))
  }

  /** `getOutputStream(storageId, repositoryId, path)`: a non-strict
      `isArtifact` check, so a new file may be written but a directory may not. */
  function GetOutputStream(l: Layout, env: Environment, c: Configuration, storageId: string, repositoryId: string, path: string): (r: Result<ArtifactOutputStream>)
    ensures FindRepository(c, storageId, repositoryId).Failure? ==> r == Failure(FindRepository(c, storageId, repositoryId).error)
    ensures r.Success? ==> FindRepository(c, storageId, repositoryId).Success?
    ensures r.Success? ==>
              var f := FindRepository(c, storageId, repositoryId).value.files;
              !(Resolve(path) in f.tree && f.tree[Resolve(path)].Directory?)
              && (r.value.coordinates.Some? <==> IsArtifact(l, env, f, path, false) == Success(true))
              && r.value.coordinates == (if IsArtifact(l, env, f, path, false) == Success(true) then Some(Coordinates(path)) else None)
              && r.value == DecorateOutput(l, env, path, Resolve(path), r.value.coordinates)
    ensures FindRepository(c, storageId, repositoryId).Success? ==>
              var f := FindRepository(c, storageId, repositoryId).value.files;
              (r.Failure? <==> Resolve(path) in f.tree && f.tree[Resolve(path)].Directory?)
  {
    var repository :- FindRepository(c, storageId, repositoryId);
    var artifact :- IsArtifact(l, env, repository.files, path, false);
    var coordinates := if artifact then Some(Coordinates(path)) else None;
    Success(DecorateOutput(l, env, path, Resolve(path), coordinates))
  }
}

=== FILE: deletion.dfy ===
/** `doDeletePath`: the deletion of one path. The base implementation
    deletes the path and, for a forced delete in a repository that allows
    it, purges the path's copy from the trash. The Nuget layout additionally
    deletes the sibling `<file>.sha512` when asked to delete checksums. */
module Deletion {
  import opened Wrappers
  import opened Paths
  import opened Repositories
  import opened Layouts

  const SHA512_SUFFIX: string := ".sha512"

  /** A forced delete bypasses the trash only when the repository allows it. */
  predicate Purges(policy: Policy, force: bool) {
    force && policy.allowsForceDeletion
  }

  /** `AbstractLayoutProvider.doDeletePath`. */
  function BaseDoDeletePath(policy: Policy, f: RepositoryFiles, p: Path, force: bool): (r: Result<RepositoryFiles>)
    ensures DeleteEntry(f, policy.trashEnabled, p).Failure? ==> r == DeleteEntry(f, policy.trashEnabled, p)
    ensures r.Success? <==> DeleteEntry(f, policy.trashEnabled, p).Success?
    ensures r.Success? ==> p in f.tree && forall q :: q in r.value.tree <==> q in f.tree && q != p
    ensures r.Success? ==> forall q :: q in r.value.tree ==> r.value.tree[q] == f.tree[q]
    ensures r.Success? && Purges(policy, force) ==>
              && (forall q :: q in r.value.trash <==> q in f.trash && !IsPrefix(p, q))
              && (forall q :: q in r.value.trash ==> r.value.trash[q] == f.trash[q])
    ensures r.Success? && !Purges(policy, force) && policy.trashEnabled && f.tree[p].File? ==>
              r.value.trash == f.trash[p := f.tree[p].content]
    ensures r.Success? && !Purges(policy, force) && !(policy.trashEnabled && f.tree[p].File?) ==>
              r.value.trash == f.trash
  {
    var deleted :- DeleteEntry(f, policy.trashEnabled, p);
    if Purges(policy, force) then Success(PurgeTrash(deleted, p)) else Success(deleted)
  }

  /** `doDeletePath(path, force, deleteChecksum)` for a layout. The sibling of
      the repository root would lie outside the repository, so the Nuget
      cascade is only asked of paths below the root. When the cascade
      throws, the primary file is already deleted, and stays so. */
  function DoDeletePath(l: Layout, policy: Policy, f: RepositoryFiles, p: Path, force: bool, deleteChecksum: bool): (r: Outcome<RepositoryFiles>)
    requires l.NugetHierarchical? && deleteChecksum ==> p != []
    ensures r.Done? ==> p in f.tree && p !in r.state.tree
    ensures BaseDoDeletePath(policy, f, p, force).Failure? ==> r == Raised(BaseDoDeletePath(policy, f, p, force).error, f)
    ensures BaseDoDeletePath(policy, f, p, force).Success? ==> p !in r.state.tree
    ensures !(l.NugetHierarchical? && deleteChecksum) ==> r == Atomic(f, BaseDoDeletePath(policy, f, p, force))
  {
    match BaseDoDeletePath(policy, f, p, force)
    case Failure(e) => Raised(e, f)
    case Success(deleted) =>
      if l.NugetHierarchical? && deleteChecksum then
        Atomic(deleted, BaseDoDeletePath(policy, deleted, Sibling(p, SHA512_SUFFIX), force))
      else
        Done(deleted)
  }

  /** With `deleteChecksum`, the Nuget layout deletes the primary file and then
      its `.sha512` sibling, both with the same `force`; every other entry of
      the tree is untouched. */
  lemma NugetCascade(policy: Policy, f: RepositoryFiles, p: Path, force: bool)
    requires p != [] && p in f.tree && f.tree[p].File?
    requires Sibling(p, SHA512_SUFFIX) in f.tree && f.tree[Sibling(p, SHA512_SUFFIX)].File?
    ensures var r := DoDeletePath(NugetHierarchical, policy, f, p, force, true);
            var s := Sibling(p, SHA512_SUFFIX);
            && r.Done?
            && r.state.tree == f.tree - {p, s}
            && (Purges(policy, force) ==>
                  && (forall q :: q in r.state.trash <==> q in f.trash && !IsPrefix(p, q) && !IsPrefix(s, q))
                  && (forall q :: q in r.state.trash ==> r.state.trash[q] == f.trash[q]))
            && (!Purges(policy, force) && policy.trashEnabled ==>
                  r.state.trash == f.trash[p := f.tree[p].content][s := f.tree[s].content])
            && (!Purges(policy, force) && !policy.trashEnabled ==> r.state.trash == f.trash)
  {
    var s := Sibling(p, SHA512_SUFFIX);
    assert s != p by {
      assert |s[|p| - 1]| == |p[|p| - 1]| + |SHA512_SUFFIX|;
    }
    var first := BaseDoDeletePath(policy, f, p, force);
    assert first.Success?;
    assert s in first.value.tree && first.value.tree[s] == f.tree[s];
    var second := BaseDoDeletePath(policy, first.value, s, force);
    assert second.Success?;
    assert second.value.tree == f.tree - {p, s};
  }

  /** Without `deleteChecksum`, the Nuget layout deletes only the primary
      file: the `.sha512` sibling, the `.nuspec` and everything else stay. */
  lemma NugetNoCascade(policy: Policy, f: RepositoryFiles, p: Path, force: bool)
    requires p in f.tree && f.tree[p].File?
    ensures var r := DoDeletePath(NugetHierarchical, policy, f, p, force, false);
            && r.Done?
            && r.state.tree == f.tree - {p}
            && r == DoDeletePath(Generic("", _ => false), policy, f, p, force, false)
  {
  }

  /** Under the `java.nio` contract of `Files.delete`, the Nuget cascade fails
      when the primary file has no `.sha512` sibling, after the primary file
      is already gone: the error reaches the caller of `delete`, and the
      repository is left as the primary's own deletion left it. */
  lemma NugetCascadeWithoutSibling(policy: Policy, f: RepositoryFiles, p: Path, force: bool)
    requires p != [] && p in f.tree && f.tree[p].File?
    requires Sibling(p, SHA512_SUFFIX) !in f.tree
    ensures var r := DoDeletePath(NugetHierarchical, policy, f, p, force, true);
            && r.Raised? && r.error == NoSuchFile(Sibling(p, SHA512_SUFFIX))
            && BaseDoDeletePath(policy, f, p, force) == Success(r.state)
            && r.state.tree == f.tree - {p}
            && (!Purges(policy, force) && policy.trashEnabled ==> r.state.trash == f.trash[p := f.tree[p].content])
  {
    var first := BaseDoDeletePath(policy, f, p, force);
    assert first.Success?;
    assert Sibling(p, SHA512_SUFFIX) !in first.value.tree;
  }

  /** A forced delete in a repository that disallows force deletion behaves
      as a soft delete: the file's content stays in the trash. */
  lemma ForceWithoutPermissionKeepsTrash(l: Layout, policy: Policy, f: RepositoryFiles, p: Path)
    requires policy.trashEnabled && !policy.allowsForceDeletion
    requires p in f.tree && f.tree[p].File?
    ensures var r := DoDeletePath(l, policy, f, p, true, false);
            r.Done? && p in r.state.trash && r.state.trash[p] == f.tree[p].content
  {
  }
}

=== FILE: directory_walk.dfy ===
/** The directory branch of `delete`: `Files.walkFileTree` visits every file
    (each deleted by `doDeletePath(file, force, false)`) and, after a
    directory's entries, deletes the directory itself. The walk is a trace of
    steps computed from the tree; the order of entries within a directory is
    whatever the directory listing yields, modelled as an arbitrary choice. */
module DirectoryWalk {
  import opened Wrappers
  import opened Paths
  import opened Repositories
  import opened Layouts
  import opened Deletion

  datatype Step =
    | VisitFile(path: Path)            // visitFile: doDeletePath(file, force, false)
    | PostVisitDirectory(path: Path)   // postVisitDirectory: Files.delete(dir)

  /** The entries directly inside `d`. */
  ghost function ChildPaths(t: Tree, d: Path): set<Path> {
    set p | p in t && |p| == |d| + 1 && IsPrefix(d, p)
  }

  /** The entries strictly below `d`. */
  ghost function Below(t: Tree, d: Path): set<Path> {
    set p | p in t && IsStrictPrefix(d, p)
  }

  /** `d` and everything below it. */
  ghost function Subtree(t: Tree, d: Path): set<Path> {
    set p | p in t && IsPrefix(d, p)
  }

  /** `p` lies at or below one of `entries`. */
  ghost predicate UnderAny(entries: set<Path>, p: Path) {
    exists c :: c in entries && IsPrefix(c, p)
  }

  /** The entries at or below any of `entries`. */
  ghost function Region(t: Tree, entries: set<Path>): set<Path> {
    set p | p in t && UnderAny(entries, p)
  }

  /** The next entry the directory listing yields. */
  ghost function Pick(entries: set<Path>): (c: Path)
    requires entries != {}
    ensures c in entries
  {
    var c :| c in entries; c
  }

  lemma ChildBelowShrinks(t: Tree, d: Path, c: Path)
    requires c in ChildPaths(t, d)
    ensures Below(t, c) < Below(t, d)
  {
    assert c in Below(t, d) && c !in Below(t, c);
    forall p | p in Below(t, c)
      ensures p in Below(t, d)
    {
      assert p[..|d|] == p[..|c|][..|d|];
    }
  }

  /** The walk of directory `d`: its entries, then the directory itself. */
  ghost function WalkDirectory(t: Tree, d: Path): seq<Step>
    decreases Below(t, d), 1, 0
  {
    WalkEntries(t, d, ChildPaths(t, d)) + [PostVisitDirectory(d)]
  }

  /** The walk of the not yet visited `entries` of directory `d`. */
  ghost function WalkEntries(t: Tree, d: Path, entries: set<Path>): seq<Step>
    requires entries <= ChildPaths(t, d)
    decreases Below(t, d), 0, |entries|
  {
    if entries == {} then []
    else
      var c := Pick(entries);
      ChildBelowShrinks(t, d, c);
      (if t[c].File? then [VisitFile(c)] else WalkDirectory(t, c)) + WalkEntries(t, d, entries - {c})
  }

  /** One step of the walk against the repository's files. */
  function Perform(l: Layout, policy: Policy, f: RepositoryFiles, step: Step, force: bool): (r: Outcome<RepositoryFiles>)
    ensures step.VisitFile? ==> r == DoDeletePath(l, policy, f, step.path, force, false)
    ensures step.PostVisitDirectory? ==> r == Atomic(f, DeleteEntry(f, policy.trashEnabled, step.path))
  {
    match step
    case VisitFile(p) => DoDeletePath(l, policy, f, p, force, false)
    case PostVisitDirectory(d) => Atomic(f, DeleteEntry(f, policy.trashEnabled, d))
  }

  /** The steps one after another; the first exception ends the walk, as it
      does in Strongbox's code, leaving whatever the earlier steps changed. */
  function Run(l: Layout, policy: Policy, f: RepositoryFiles, steps: seq<Step>, force: bool): (r: Outcome<RepositoryFiles>)
    decreases |steps|
  {
    if steps == [] then Done(f)
    else
      match Perform(l, policy, f, steps[0], force)
      case Done(next) => Run(l, policy, next, steps[1..], force)
      case Raised(e, partial) => Raised(e, partial)
  }

  lemma {:induction false} RunAppend(l: Layout, policy: Policy, f: RepositoryFiles, a: seq<Step>, b: seq<Step>, force: bool)
    ensures Run(l, policy, f, a + b, force)
         == (match Run(l, policy, f, a, force)
             case Done(g) => Run(l, policy, g, b, force)
             case Raised(e, g) => Raised(e, g))
    decreases |a|
  {
    if a == [] {
      assert a + b == b;
    } else {
      assert (a + b)[0] == a[0];
      assert (a + b)[1..] == a[1..] + b;
      match Perform(l, policy, f, a[0], force)
      case Done(g) => RunAppend(l, policy, g, a[1..], b, force);
      case Raised(_, _) =>
    }
  }

  // ---- the shape of the tree ----

  /** In a tree whose parents are directories, every ancestor of an entry is a
      present directory. */
  lemma {:induction false} AncestorIsDirectory(t: Tree, p: Path, k: nat)
    requires ParentsAreDirectories(t) && p in t && k < |p|
    ensures p[..k] in t && t[p[..k]].Directory?
    decreases |p| - k
  {
    if k == |p| - 1 {
    } else {
      AncestorIsDirectory(t, p, k + 1);
      var q := p[..k + 1];
      assert q[..|q| - 1] == p[..k];
    }
  }

  /** Nothing lies below a file. */
  lemma NothingBelowFile(t: Tree, c: Path)
    requires ParentsAreDirectories(t) && c in t && t[c].File?
    ensures Subtree(t, c) == {c}
  {
    forall p | p in Subtree(t, c)
      ensures p == c
    {
      if |p| > |c| {
        AncestorIsDirectory(t, p, |c|);
      } else {
        assert p == p[..|c|];
      }
    }
  }

  /** Everything strictly below `d` lies at or below one of its children. */
  lemma BelowIsRegionOfChildren(t: Tree, d: Path)
    requires ParentsAreDirectories(t)
    ensures Below(t, d) == Region(t, ChildPaths(t, d))
  {
    forall p | p in Below(t, d)
      ensures p in Region(t, ChildPaths(t, d))
    {
      var c := p[..|d| + 1];
      if |p| > |d| + 1 {
        AncestorIsDirectory(t, p, |d| + 1);
      } else {
        assert c == p;
      }
      assert c[..|d|] == p[..|d|];
      assert c in ChildPaths(t, d);
    }
    forall p | p in Region(t, ChildPaths(t, d))
      ensures p in Below(t, d)
    {
      var c :| c in ChildPaths(t, d) && IsPrefix(c, p);
      assert p[..|d|] == p[..|c|][..|d|];
    }
  }

  /** The subtrees of two different children of `d` are unrelated: no path of
      one is a prefix of a path of the other. */
  lemma ChildrenUnrelated(t: Tree, d: Path, c: Path, c': Path, a: Path, b: Path)
    requires c in ChildPaths(t, d) && c' in ChildPaths(t, d) && c != c'
    requires IsPrefix(c, a) && IsPrefix(c', b)
    ensures !IsPrefix(a, b) && !IsPrefix(b, a)
  {
  }

  /** The region of `entries` splits into the subtree of one of them and the region of the rest. */
  lemma RegionSplit(t: Tree, entries: set<Path>, c: Path)
    requires c in entries
    ensures Region(t, entries) == Subtree(t, c) + Region(t, entries - {c})
  {
    forall p | p in Region(t, entries)
      ensures p in Subtree(t, c) + Region(t, entries - {c})
    {
      var c' :| c' in entries && IsPrefix(c', p);
      if c' != c {
        assert UnderAny(entries - {c}, p);
      }
    }
  }
}

=== FILE: layouts.dfy ===
/** The per-format layout providers: the format hooks (`isMetadata`, the
    digest algorithm set, the digest encoder, the alias), path classification
    and the layout-provider registry. `AbstractLayoutProvider` supplies the
    defaults; `NugetHierarchicalLayoutProvider` overrides them. */
module Layouts {
  import opened Wrappers
  import opened Text
  import opened Paths
  import opened Repositories

  /** A layout format. `Generic` stands for any subclass that keeps every
      default of `AbstractLayoutProvider` and supplies only the abstract
      `isMetadata` hook and its alias. */
  datatype Layout =
    | NugetHierarchical
    | Generic(alias: string, metadata: string -> bool)

  /** The collaborators whose code is not part of this model:
      `ArtifactFileUtils.isChecksum`, whether the JVM provides a digest
      algorithm, and `MessageDigestUtils.readChecksumFile` (which yields
      `None` when it throws). */
  datatype Environment = Environment(
    isChecksum: string -> bool,
    algorithmSupported: string -> bool,
    readChecksumFile: Content -> Option<string>)

  /** How digests are turned into strings on an output stream. */
  datatype DigestEncoding = Hexadecimal | Base64

  /** Values of commons-codec's `MessageDigestAlgorithms` constants. */
  const MD5: string := "MD5"
  const SHA_1: string := "SHA-1"
  const SHA_512: string := "SHA-512"

  const NUGET_ALIAS: string := "Nuget Hierarchical"

  /** `getAlias()`. */
  function Alias(l: Layout): string {
    match l
    case NugetHierarchical => NUGET_ALIAS
    case Generic(alias, _) => alias
  }

  /** `isMetadata(path)`: the Nuget layout treats a path ending in "nuspec"
      as metadata; a generic layout asks its own hook. */
  function IsMetadata(l: Layout, path: string): bool {
    match l
    case NugetHierarchical => EndsWith(path, "nuspec")
    case Generic(_, metadata) => metadata(path)
  }

  /** `getDigestAlgorithmSet()`: MD5 and SHA-1 by default, SHA-512 alone for Nuget. */
  function DigestAlgorithmSet(l: Layout): set<string> {
    match l
    case NugetHierarchical => {SHA_512}
    case Generic(_, _) => {MD5, SHA_1}
  }

  /** The stringifier an output stream is given: the Nuget override installs
      Base64, every other layout keeps the hexadecimal default. */
  function Encoding(l: Layout): DigestEncoding {
    match l
    case NugetHierarchical => Base64
    case Generic(_, _) => Hexadecimal
  }

  lemma DefaultDigestAlgorithms(alias: string, metadata: string -> bool)
    ensures var s := DigestAlgorithmSet(Generic(alias, metadata));
            |s| == 2 && forall a :: a in s <==> a == "MD5" || a == "SHA-1"
  {
    assert "MD5" != "SHA-1";
  }

  lemma NugetDigestAlgorithms()
    ensures var s := DigestAlgorithmSet(NugetHierarchical);
            |s| == 1 && forall a :: a in s <==> a == "SHA-512"
  {
  }

  // ---- path classification ----

  predicate IsTrash(path: string) {
    Contains(path, ".trash")
  }

  predicate IsTemp(path: string) {
    Contains(path, ".temp")
  }

  predicate IsIndex(path: string) {
    Contains(path, ".index")
  }

  /** `isServiceFolder(path)`: the path mentions a temp, trash or index folder
      marker anywhere, not only as a whole segment. */
  function IsServiceFolder(path: string): (b: bool)
    ensures b <==> ((exists i :: OccursAt(path, ".trash", i))
                    || (exists i :: OccursAt(path, ".temp", i))
                    || (exists i :: OccursAt(path, ".index", i)))
  {
    IsTemp(path) || IsTrash(path) || IsIndex(path)
  }

  /** `isArtifact(repository, path, strict)`: resolves the path; a missing path
      is an error only in strict mode, an existing directory always is;
      otherwise the path is an artifact when it is neither metadata, nor a
      checksum, nor inside a service folder. */
  function IsArtifact(l: Layout, env: Environment, f: RepositoryFiles, path: string, strict: bool): (r: Result<bool>)
    ensures r == Failure(NotFound(path)) <==> Resolve(path) !in f.tree && strict
    ensures r == Failure(IsDirectory(path)) <==> Resolve(path) in f.tree && f.tree[Resolve(path)].Directory?
    ensures r.Success? <==> (Resolve(path) in f.tree ==> f.tree[Resolve(path)].File?)
                            && (Resolve(path) !in f.tree ==> !strict)
    ensures r.Success? ==>
              (r.value <==> !IsMetadata(l, path) && !env.isChecksum(path) && !IsServiceFolder(path))
  {
    var p := Resolve(path);
    var present := p in f.tree;
    if !present && strict then
      Failure(NotFound(path))
    else if present && f.tree[p].Directory? then
      Failure(IsDirectory(path))
    else
      Success(!IsMetadata(l, path) && !env.isChecksum(path) && !IsServiceFolder(path))
  }

  // ---- the layout-provider registry ----

  /** The process-wide registry: layout providers by alias. */
  type Registry = map<string, Layout>

  /** `register()`: adds the provider under its alias. */
  function Register(reg: Registry, l: Layout): (r: Registry)
    ensures Alias(l) in r && r[Alias(l)] == l
    ensures r.Keys == reg.Keys + {Alias(l)}
    ensures forall a :: a in reg && a != Alias(l) ==> r[a] == reg[a]
  {
    reg[Alias(l) := l]
  }

  /** The Nuget layout registers itself under "Nuget Hierarchical", the very
      string its `getAlias()` returns, so a lookup by that alias finds it. */
  lemma NugetRegistration(reg: Registry)
    ensures var r := Register(reg, NugetHierarchical);
            "Nuget Hierarchical" in r && r["Nuget Hierarchical"] == NugetHierarchical
            && Alias(NugetHierarchical) == "Nuget Hierarchical"
  {
  }

  /** `deleteMetadata` of the Nuget layout does nothing. */
  function NugetDeleteMetadata(c: Configuration, storageId: string, repositoryId: string, metadataPath: string): (r: Configuration)
    ensures r == c
  {
    c
  }
}

=== FILE: paths.dfy ===
/** Repository-relative paths. A caller names a file by a `/`-separated string;
    the storage provider resolves it against the repository root into a
    sequence of names (`RepositoryPath.resolve`), dropping empty segments as
    `java.nio` paths do. */
module Paths {

  type Name = string

  /** A resolved path below the repository root; `[]` is the root itself. */
  type Path = seq<Name>

  predicate IsPrefix(a: Path, b: Path) {
    |a| <= |b| && b[..|a|] == a
  }

  predicate IsStrictPrefix(a: Path, b: Path) {
    |a| < |b| && b[..|a|] == a
  }

  lemma PrefixTransitive(a: Path, b: Path, c: Path)
    ensures IsPrefix(a, b) && IsPrefix(b, c) ==> IsPrefix(a, c)
  {
    if IsPrefix(a, b) && IsPrefix(b, c) {
      assert c[..|a|] == c[..|b|][..|a|];
    }
  }

  /** Every name is a single non-empty path segment. */
  predicate WellFormedNames(p: Path) {
    forall i :: 0 <= i < |p| ==> p[i] != "" && '/' !in p[i]
  }

  /** `s.split("/")` keeping empty segments; never empty. */
  function Split(s: string): (r: seq<string>)
    ensures |r| >= 1
    ensures forall i :: 0 <= i < |r| ==> '/' !in r[i]
  {
    if s == [] then [""]
    else if s[0] == '/' then [""] + Split(s[1..])
    else
      var rest := Split(s[1..]);
      [[s[0]] + rest[0]] + rest[1..]
  }

  /** The non-empty members of `xs`, in order. */
  function NonEmpty(xs: seq<string>): (r: seq<string>)
    ensures forall i :: 0 <= i < |r| ==> r[i] != "" && r[i] in xs
  {
    if xs == [] then []
    else if xs[0] == "" then NonEmpty(xs[1..])
    else [xs[0]] + NonEmpty(xs[1..])
  }

  /** Resolution of a caller's path string against the repository root. */
  function Resolve(s: string): (p: Path)
    ensures WellFormedNames(p)
  {
    NonEmpty(Split(s))
  }

  /** `path.resolveSibling(path.getFileName() + suffix)`: the same directory,
      the file name extended by `suffix`. */
  function Sibling(p: Path, suffix: string): (r: Path)
    requires |p| > 0
    ensures |r| == |p| && r[..|p| - 1] == p[..|p| - 1]
    ensures r[|p| - 1] == p[|p| - 1] + suffix
  {
    p[..|p| - 1] + [p[|p| - 1] + suffix]
  }

  lemma {:induction false} NonEmptyAppend(a: seq<string>, b: seq<string>)
    ensures NonEmpty(a + b) == NonEmpty(a) + NonEmpty(b)
  {
    if a == [] {
      assert a + b == b;
    } else {
      assert (a + b)[1..] == a[1..] + b;
      NonEmptyAppend(a[1..], b);
    }
  }

  /** Appending text with no separator only extends the last segment. */
  lemma {:induction false} SplitAppend(s: string, t: string)
    requires '/' !in t
    ensures var S := Split(s);
            Split(s + t) == S[..|S| - 1] + [S[|S| - 1] + t]
  {
    if s == [] {
      SplitNoSeparator(t);
      assert s + t == t;
    } else {
      assert (s + t)[1..] == s[1..] + t;
      assert (s + t)[0] == s[0];
      SplitAppend(s[1..], t);
      var R := Split(s[1..]);
      var R' := Split(s[1..] + t);
      assert R' == R[..|R| - 1] + [R[|R| - 1] + t];
      if s[0] == '/' {
        assert Split(s) == [""] + R;
        assert Split(s + t) == [""] + R';
      } else {
        assert Split(s + t) == [[s[0]] + R'[0]] + R'[1..];
        assert Split(s) == [[s[0]] + R[0]] + R[1..];
        ExtendFirstSegment(s[0], R, t);
      }
    }
  }

  /** Prefixing a character to the first segment commutes with extending the last. */
  lemma ExtendFirstSegment(x: char, R: seq<string>, t: string)
    requires |R| >= 1
    ensures var R' := R[..|R| - 1] + [R[|R| - 1] + t];
            var S := [[x] + R[0]] + R[1..];
            [[x] + R'[0]] + R'[1..] == S[..|S| - 1] + [S[|S| - 1] + t]
  {
    if |R| == 1 {
      assert [x] + (R[0] + t) == [x] + R[0] + t;
    }
  }

  lemma {:induction false} SplitNoSeparator(t: string)
    requires '/' !in t
    ensures Split(t) == [t]
  {
    if t != [] {
      SplitNoSeparator(t[1..]);
      assert [t[0]] + t[1..] == t;
    }
  }

  /** A string that does not end in `/` has a non-empty last segment. */
  lemma LastSegmentNonEmpty(s: string)
    requires |s| > 0 && s[|s| - 1] != '/'
    ensures var S := Split(s); S[|S| - 1] != ""
  {
    var init := s[..|s| - 1];
    assert s == init + [s[|s| - 1]];
    SplitAppend(init, [s[|s| - 1]]);
  }

  /** Appending a separator-free suffix to a path string that does not end in
      `/` resolves to the sibling whose name carries that suffix: the
      string-level `path + ".sha512"` and the file-level
      `resolveSibling(fileName + ".sha512")` name the same file. */
  lemma ResolveAppend(s: string, suffix: string)
    requires |s| > 0 && s[|s| - 1] != '/'
    requires '/' !in suffix
    ensures |Resolve(s)| > 0
    ensures Resolve(s + suffix) == Sibling(Resolve(s), suffix)
  {
    var S := Split(s);
    SplitAppend(s, suffix);
    LastSegmentNonEmpty(s);
    var last := S[|S| - 1];
    assert S == S[..|S| - 1] + [last];
    NonEmptyAppend(S[..|S| - 1], [last]);
    NonEmptyAppend(S[..|S| - 1], [last + suffix]);
    assert NonEmpty([last]) == [last];
    assert NonEmpty([last + suffix]) == [last + suffix];
  }
}

=== FILE: properties.dfy ===
/** Properties that relate several operations: deletion against restore,
    deletion against itself and the shape of the tree, and the Nuget layout's
    read decoration against its deletion cascade. */
module Properties {
  import opened Wrappers
  import opened Text
  import opened Paths
  import opened Repositories
  import opened Layouts
  import opened Deletion
  import opened Decoration
  import opened DirectoryWalk
  import opened WalkExecution
  import opened Removal

  /** The deletions whose effect `Delete` states as a removal: a directory,
      a file under a layout without a cascade, or a Nuget file whose
      `.sha512` sibling is a file. */
  ghost predicate RemovalCase(l: Layout, f: RepositoryFiles, p: Path) {
    && p in f.tree
    && (f.tree[p].Directory? || !l.NugetHierarchical?
        || (p != [] && Sibling(p, SHA512_SUFFIX) in f.tree && f.tree[Sibling(p, SHA512_SUFFIX)].File?))
  }

  /** In the removal cases `Delete` removes a set of entries that holds the
      whole subtree of the path. */
  lemma DeleteRemoves(l: Layout, policy: Policy, f: RepositoryFiles, p: Path, force: bool)
    returns (R: set<Path>)
    requires Valid(f) && RemovalCase(l, f, p)
    ensures Subtree(f.tree, p) <= R
    ensures Delete(l, policy, f, p, force) == Done(Removed(policy, force, f, R))
  {
    if f.tree[p].Directory? || !l.NugetHierarchical? {
      R := Subtree(f.tree, p);
    } else {
      DeleteFileFacts(l, policy, f, p, force);
      R := {p, Sibling(p, SHA512_SUFFIX)};
    }
  }

  /** A soft delete (trash enabled, no permitted force) followed by
      `undelete` of the same path brings back every file that was at or
      below it, with its content. */
  lemma SoftDeleteThenUndelete(l: Layout, policy: Policy, f: RepositoryFiles, p: Path, force: bool)
    requires Valid(f) && RemovalCase(l, f, p)
    requires policy.trashEnabled && !Purges(policy, force)
    ensures Delete(l, policy, f, p, force).Done?
    ensures var g := RestoreTrash(Delete(l, policy, f, p, force).state, p);
            forall q :: q in Subtree(f.tree, p) && f.tree[q].File? ==> q in g.tree && g.tree[q] == f.tree[q]
  {
    var R := DeleteRemoves(l, policy, f, p, force);
    var d := Removed(policy, force, f, R);
    forall q | q in Subtree(f.tree, p) && f.tree[q].File?
      ensures q in d.trash && d.trash[q] == f.tree[q].content
    {
      assert q in FilesOf(f.tree, R);
    }
  }

  /** A permitted forced delete leaves nothing of a deleted file in the
      trash, not even below it, so `undelete` cannot bring it back. */
  lemma ForcedDeleteIsPermanent(l: Layout, policy: Policy, f: RepositoryFiles, p: Path, force: bool)
    requires Valid(f) && RemovalCase(l, f, p)
    requires Purges(policy, force)
    ensures Delete(l, policy, f, p, force).Done?
    ensures var d := Delete(l, policy, f, p, force).state;
            forall q :: q in Subtree(f.tree, p) && f.tree[q].File? ==>
              && (forall x :: x in d.trash ==> !IsPrefix(q, x))
              && q !in RestoreTrash(d, p).tree
  {
    var R := DeleteRemoves(l, policy, f, p, force);
    var d := Removed(policy, force, f, R);
    var F := FilesOf(f.tree, R);
    forall q | q in Subtree(f.tree, p) && f.tree[q].File?
      ensures forall x :: x in d.trash ==> !IsPrefix(q, x)
    {
      assert q in F.Keys;
      forall x | x in d.trash
        ensures !IsPrefix(q, x)
      {
        assert !UnderAny(F.Keys, x);
      }
    }
  }

  /** Deleting never breaks the shape of the tree, even when it throws
      halfway: what remains still sits in present directories. */
  lemma DeletePreservesValid(l: Layout, policy: Policy, f: RepositoryFiles, p: Path, force: bool)
    requires Valid(f)
    ensures Valid(Delete(l, policy, f, p, force).state)
  {
    if p in f.tree && f.tree[p].Directory? {
      RemovingSubtreeKeepsParents(f.tree, p);
    } else if p in f.tree {
      assert p != [];
      DoDeletePathKeepsValid(l, policy, f, p, force, true);
    }
  }

  /** Removing a whole subtree leaves every remaining entry's parent. */
  lemma RemovingSubtreeKeepsParents(t: Tree, p: Path)
    requires ParentsAreDirectories(t)
    ensures ParentsAreDirectories(t - Subtree(t, p))
  {
    var u := t - Subtree(t, p);
    forall q | q in u && |q| > 0
      ensures q[..|q| - 1] in u
    {
      PrefixTransitive(p, q[..|q| - 1], q);
    }
  }

  /** `Files.delete` only ever removes a file or an empty directory, so no
      remaining entry loses its parent. */
  lemma DeleteEntryKeepsValid(f: RepositoryFiles, trashEnabled: bool, p: Path)
    requires Valid(f)
    ensures DeleteEntry(f, trashEnabled, p).Success? ==> Valid(DeleteEntry(f, trashEnabled, p).value)
  {
    var r := DeleteEntry(f, trashEnabled, p);
    if r.Success? {
      forall q | q in r.value.tree && |q| > 0
        ensures q[..|q| - 1] != p
      {
        if q[..|q| - 1] == p && f.tree[p].Directory? {
          assert IsStrictPrefix(p, q);
        }
      }
    }
  }

  lemma DoDeletePathKeepsValid(l: Layout, policy: Policy, f: RepositoryFiles, p: Path, force: bool, deleteChecksum: bool)
    requires Valid(f) && (l.NugetHierarchical? && deleteChecksum ==> p != [])
    ensures Valid(DoDeletePath(l, policy, f, p, force, deleteChecksum).state)
  {
    DeleteEntryKeepsValid(f, policy.trashEnabled, p);
    var first := BaseDoDeletePath(policy, f, p, force);
    if first.Success? && l.NugetHierarchical? && deleteChecksum {
      DeleteEntryKeepsValid(first.value, policy.trashEnabled, Sibling(p, SHA512_SUFFIX));
    }
  }

  /** Deleting the same path again changes nothing. */
  lemma DeleteTwice(l: Layout, policy: Policy, f: RepositoryFiles, p: Path, force: bool)
    requires Valid(f) && Delete(l, policy, f, p, force).Done?
    ensures var g := Delete(l, policy, f, p, force).state;
            Valid(g) && Delete(l, policy, g, p, force) == Done(g)
  {
    DeletePreservesValid(l, policy, f, p, force);
    if p in f.tree {
      assert p[..|p|] == p;
      assert p in Subtree(f.tree, p);
    }
  }

  // ---- the Nuget layout ----

  /** Under the Nuget layout a path ending in "nuspec" is never classified as
      an artifact, in either mode. */
  lemma NuspecNeverArtifact(env: Environment, f: RepositoryFiles, path: string, strict: bool)
    requires EndsWith(path, "nuspec")
    ensures IsArtifact(NugetHierarchical, env, f, path, strict) != Success(true)
  {
  }

  // The three steps below are separate lemmas so that each hands the solver
  // only one fact: unfolding the extension of "SHA-512" and the string
  // concatenations in the same proof exceeds the solver's budget.

  /** A companion path is the path, a '.', then the algorithm's extension. */
  lemma CompanionPathOf(path: string, algorithm: string, extension: string)
    requires ChecksumExtension(algorithm) == extension
    ensures ChecksumPath(path, algorithm) == path + "." + extension
  {
  }

  /** The SHA-512 companion of a path is the path with `.sha512` appended. */
  lemma Sha512CompanionPath(path: string)
    ensures ChecksumPath(path, SHA_512) == path + SHA512_SUFFIX
  {
    Sha512Extended(path);
    Sha512Suffix(path);
  }

  /** The SHA-512 companion spelled with the extension "sha512". */
  lemma Sha512Extended(path: string)
    ensures ChecksumPath(path, SHA_512) == path + "." + "sha512"
  {
    ExtensionOfSha512();
    CompanionPathOf(path, SHA_512, "sha512");
  }

  /** The two spellings of the `.sha512` suffix agree. */
  lemma Sha512Suffix(path: string)
    ensures path + "." + "sha512" == path + SHA512_SUFFIX
  {
  }

  /** The SHA-512 companion that the read decoration consults is the very
      `.sha512` sibling that the Nuget deletion cascades to. */
  lemma CompanionIsCascadeSibling(path: string)
    requires |path| > 0 && path[|path| - 1] != '/'
    ensures |Resolve(path)| > 0
    ensures Resolve(ChecksumPath(path, SHA_512)) == Sibling(Resolve(path), SHA512_SUFFIX)
  {
    Sha512CompanionPath(path);
    ResolveAppend(path, SHA512_SUFFIX);
  }

  /** The Nuget read decoration yields at most a SHA-512 digest, and yields
      it exactly when the cascade sibling is a readable checksum file. */
  lemma NugetReadsCascadeSibling(env: Environment, f: RepositoryFiles, path: string, content: Content, coordinates: Option<Coordinates>)
    requires |path| > 0 && path[|path| - 1] != '/' && !env.isChecksum(path)
    ensures |Resolve(path)| > 0
    ensures var s := DecorateInput(NugetHierarchical, env, f, path, content, coordinates);
            var sibling := Sibling(Resolve(path), SHA512_SUFFIX);
            && (forall a :: a in s.digests ==> a == SHA_512)
            && (SHA_512 in s.digests <==>
                  sibling in f.tree && f.tree[sibling].File? && env.readChecksumFile(f.tree[sibling].content).Some?)
  {
    var s := DecorateInput(NugetHierarchical, env, f, path, content, coordinates);
    NugetDigestAlgorithms();
    assert SHA_512 in s.digests <==> CompanionChecksum(NugetHierarchical, env, f, path, SHA_512).Some?;
    CompanionIsCascadeSibling(path);
  }

  /** The Nuget write decoration keeps the base rule for algorithms (none on
      a checksum path, SHA-512 when the platform supports it) and changes
      only the encoding, to Base64. */
  lemma NugetWriteDecoration(env: Environment, path: string, target: Path, coordinates: Option<Coordinates>)
    ensures var s := DecorateOutput(NugetHierarchical, env, path, target, coordinates);
            && s.encoding == Base64
            && (env.isChecksum(path) ==> s.algorithms == {})
            && (!env.isChecksum(path) ==> (s.algorithms == {SHA_512} <==> env.algorithmSupported(SHA_512)))
            && (!env.isChecksum(path) && !env.algorithmSupported(SHA_512) ==> s.algorithms == {})
  {
    var s := DecorateOutput(NugetHierarchical, env, path, target, coordinates);
    if !env.isChecksum(path) && !env.algorithmSupported(SHA_512) {
      assert forall a :: a !in s.algorithms;
    }
  }

  // ---- the global sweeps ----

  /** Sweeping the trash away a second time changes nothing. */
  lemma DeleteAllTrashIdempotent(c: Configuration)
    ensures ApplyToAll(ApplyToAll(c, EmptyTrash), EmptyTrash) == ApplyToAll(c, EmptyTrash)
  {
    var once := ApplyToAll(c, EmptyTrash);
    var twice := ApplyToAll(once, EmptyTrash);
    forall sid | sid in c.storages
      ensures twice.storages[sid] == once.storages[sid]
    {
      var s := once.storages[sid];
      forall rid | rid in s.repositories
        ensures EmptyTrash(s.repositories[rid].files) == s.repositories[rid].files
      {
      }
      assert ApplyToStorage(s, EmptyTrash).repositories == s.repositories;
    }
    assert twice.storages == once.storages;
  }

  /** Restoring every trash a second time changes nothing: the first sweep
      left every trash empty. */
  lemma UndeleteAllTrashIdempotent(c: Configuration)
    ensures ApplyToAll(ApplyToAll(c, RestoreAll), RestoreAll) == ApplyToAll(c, RestoreAll)
  {
    var once := ApplyToAll(c, RestoreAll);
    var twice := ApplyToAll(once, RestoreAll);
    forall sid | sid in c.storages
      ensures twice.storages[sid] == once.storages[sid]
    {
      var s := once.storages[sid];
      forall rid | rid in s.repositories
        ensures RestoreAll(s.repositories[rid].files) == s.repositories[rid].files
      {
        RestoreNothing(s.repositories[rid].files);
      }
      assert ApplyToStorage(s, RestoreAll).repositories == s.repositories;
    }
    assert twice.storages == once.storages;
  }

  /** The global `deleteTrash()` reaches each repository through the ids the
      storage and repository carry. When every one is filed under its own id,
      that call empties exactly the repository the sweep is visiting, as the
      reference sweep does. */
  lemma DeleteAllTrashVisitsEachRepository(c: Configuration, sid: string, rid: string)
    requires ConsistentIds(c) && sid in c.storages && rid in c.storages[sid].repositories
    ensures var s := c.storages[sid];
            var repository := s.repositories[rid];
            var visit := DeleteTrashIn(c, s.id, repository.id);
            && visit == Success(PutFiles(c, sid, rid, EmptyTrash(repository.files)))
            && visit.value.storages[sid].repositories[rid] == ApplyToAll(c, EmptyTrash).storages[sid].repositories[rid]
  {
    var s := c.storages[sid];
    assert s.id == sid && s.repositories[rid].id == rid;
  }

  /** The global `undeleteTrash()` likewise restores, through the carried
      ids, exactly the repository the sweep is visiting. */
  lemma UndeleteAllTrashVisitsEachRepository(c: Configuration, sid: string, rid: string)
    requires ConsistentIds(c) && sid in c.storages && rid in c.storages[sid].repositories
    ensures var s := c.storages[sid];
            var repository := s.repositories[rid];
            var visit := UndeleteTrashIn(c, s.id, repository.id);
            && visit == Success(PutFiles(c, sid, rid, RestoreAll(repository.files)))
            && visit.value.storages[sid].repositories[rid] == ApplyToAll(c, RestoreAll).storages[sid].repositories[rid]
  {
    var s := c.storages[sid];
    assert s.id == sid && s.repositories[rid].id == rid;
  }

  /** `undeleteTrash` keeps the tree's shape when every trashed file fits back. */
  lemma RestoreAllPreservesValid(f: RepositoryFiles)
    requires Valid(f) && Restorable(f, [])
    ensures Valid(RestoreAll(f))
  {
    RestorePreservesValid(f, []);
  }

  /** Restoring from an empty trash changes nothing. */
  lemma RestoreNothing(f: RepositoryFiles)
    requires f.trash == map[]
    ensures RestoreAll(f) == f
  {
    var r := RestoreAll(f);
    assert r.tree == f.tree;
  }
}

=== FILE: removal.dfy ===
/** `delete`, `deleteTrash`, `undelete` and `undeleteTrash` of a layout
    provider: the single-repository forms over a repository's files and over
    the configuration, and the global sweeps over every repository of every
    storage. */
module Removal {
  import opened Wrappers
  import opened Paths
  import opened Repositories
  import opened Layouts
  import opened Deletion
  import opened DirectoryWalk
  import opened WalkExecution

  /** `delete(path, force)` on one repository's files: a missing path is left
      alone; a file goes through `doDeletePath(path, force, true)`; a
      directory is walked, every file inside it deleted with
      `doDeletePath(file, force, false)` and every directory removed after its
      contents. An exception leaves the repository as the steps before it
      left it. */
  ghost function Delete(l: Layout, policy: Policy, f: RepositoryFiles, p: Path, force: bool): (r: Outcome<RepositoryFiles>)
    requires Valid(f)
    ensures p !in f.tree ==> r == Done(f)
    ensures p in f.tree && (f.tree[p].Directory? || !l.NugetHierarchical?) ==>
              r == Done(Removed(policy, force, f, Subtree(f.tree, p)))
    ensures p in f.tree && f.tree[p].File? && l.NugetHierarchical? ==>
              var s := Sibling(p, SHA512_SUFFIX);
              && (s in f.tree && f.tree[s].File? ==> r == Done(Removed(policy, force, f, {p, s})))
              && (s !in f.tree ==> r == Raised(NoSuchFile(s), Removed(policy, force, f, {p})))
    ensures r.Done? ==> forall q :: q in Subtree(f.tree, p) ==> q !in r.state.tree
    ensures p !in r.state.tree
  {
    if p !in f.tree then
      SubtreeHasRoot(f.tree, p);
      Done(f)
    else if f.tree[p].File? then
      assert p != [];
      DeleteFileFacts(l, policy, f, p, force);
      DoDeletePath(l, policy, f, p, force, true)
    else
      WalkDirectoryRuns(l, policy, f, f.tree, p, force);
      Run(l, policy, f, WalkDirectory(f.tree, p), force)
  }

  /** Whatever lies at or below `p` has `p` itself present. */
  lemma SubtreeHasRoot(t: Tree, p: Path)
    requires ParentsAreDirectories(t)
    ensures Subtree(t, p) != {} ==> p in t
  {
    if Subtree(t, p) != {} {
      var q :| q in Subtree(t, p);
      if |q| == |p| {
        assert q == q[..|p|];
      } else {
        AncestorIsDirectory(t, q, |p|);
      }
    }
  }

  /** Deleting a file is removing its subtree, which is the file alone; the
      Nuget cascade removes the file and its `.sha512` sibling. */
  lemma DeleteFileFacts(l: Layout, policy: Policy, f: RepositoryFiles, p: Path, force: bool)
    requires Valid(f) && p in f.tree && f.tree[p].File? && p != []
    ensures !l.NugetHierarchical? ==>
              DoDeletePath(l, policy, f, p, force, true) == Done(Removed(policy, force, f, Subtree(f.tree, p)))
    ensures var s := Sibling(p, SHA512_SUFFIX);
            l.NugetHierarchical? && s in f.tree && f.tree[s].File? ==>
              DoDeletePath(l, policy, f, p, force, true) == Done(Removed(policy, force, f, {p, s}))
    ensures var s := Sibling(p, SHA512_SUFFIX);
            l.NugetHierarchical? && s !in f.tree ==>
              DoDeletePath(l, policy, f, p, force, true) == Raised(NoSuchFile(s), Removed(policy, force, f, {p}))
    ensures Subtree(f.tree, p) == {p}
  {
    NothingBelowFile(f.tree, p);
    if !l.NugetHierarchical? {
      PlainFileRemoval(l, policy, f, p, force);
    }
    var s := Sibling(p, SHA512_SUFFIX);
    if l.NugetHierarchical? && s in f.tree && f.tree[s].File? {
      CascadeIsRemoval(policy, f, p, force);
    }
    if l.NugetHierarchical? && s !in f.tree {
      CascadeFailureIsPartialRemoval(policy, f, p, force);
    }
  }

  /** Outside the Nuget layout, deleting a file removes that file alone. */
  lemma PlainFileRemoval(l: Layout, policy: Policy, f: RepositoryFiles, p: Path, force: bool)
    requires !l.NugetHierarchical? && p in f.tree && f.tree[p].File?
    ensures DoDeletePath(l, policy, f, p, force, true) == Done(Removed(policy, force, f, {p}))
  {
    assert FilesOf(f.tree, {p}) == map[p := f.tree[p].content];
    VisitFileRuns(l, policy, f, p, f.tree[p].content, force);
    RunSingle(l, policy, f, VisitFile(p), force);
  }

  /** The effect of the Nuget cascade, stated as the removal of the pair. */
  lemma CascadeIsRemoval(policy: Policy, f: RepositoryFiles, p: Path, force: bool)
    requires p != [] && p in f.tree && f.tree[p].File?
    requires Sibling(p, SHA512_SUFFIX) in f.tree && f.tree[Sibling(p, SHA512_SUFFIX)].File?
    ensures DoDeletePath(NugetHierarchical, policy, f, p, force, true)
         == Done(Removed(policy, force, f, {p, Sibling(p, SHA512_SUFFIX)}))
  {
    var s := Sibling(p, SHA512_SUFFIX);
    assert s != p by {
      assert |s[|p| - 1]| == |p[|p| - 1]| + |SHA512_SUFFIX|;
    }
    var cp := f.tree[p].content;
    var cs := f.tree[s].content;
    DeleteFileSweeps(policy, f, p, cp, force);
    var g := RepositoryFiles(f.tree - {p}, Swept(policy, force, f.trash, map[p := cp]));
    DeleteFileSweeps(policy, g, s, cs, force);
    SweptTwice(policy, force, f.trash, map[p := cp], map[s := cs]);
    assert map[p := cp] + map[s := cs] == FilesOf(f.tree, {p, s});
    assert g.tree - {s} == f.tree - {p, s};
  }

  /** When the `.sha512` sibling is missing, the cascade throws with the
      primary file already removed and swept. */
  lemma CascadeFailureIsPartialRemoval(policy: Policy, f: RepositoryFiles, p: Path, force: bool)
    requires p != [] && p in f.tree && f.tree[p].File?
    requires Sibling(p, SHA512_SUFFIX) !in f.tree
    ensures DoDeletePath(NugetHierarchical, policy, f, p, force, true)
         == Raised(NoSuchFile(Sibling(p, SHA512_SUFFIX)), Removed(policy, force, f, {p}))
  {
    var cp := f.tree[p].content;
    DeleteFileSweeps(policy, f, p, cp, force);
    assert FilesOf(f.tree, {p}) == map[p := cp];
    NugetCascadeWithoutSibling(policy, f, p, force);
  }

  // ---- the operations on the configuration ----

  /** `contains`/`containsPath`: whether the path exists in the repository. */
  function Exists(c: Configuration, storageId: string, repositoryId: string, path: string): (r: Result<bool>)
    ensures FindRepository(c, storageId, repositoryId).Failure? ==> r == Failure(FindRepository(c, storageId, repositoryId).error)
    ensures r.Success? ==> FindRepository(c, storageId, repositoryId).Success?
    ensures r.Success? ==> (r.value <==> Resolve(path) in FindRepository(c, storageId, repositoryId).value.files.tree)
  {
    var repository :- FindRepository(c, storageId, repositoryId);
    Success(Resolve(path) in repository.files.tree)
  }

  /** `delete(storageId, repositoryId, path, force)`: a failed lookup throws
      before anything changes; otherwise the repository's files become what
      `Delete` leaves, and its exception, if any, reaches the caller. */
  ghost function DeleteIn(l: Layout, c: Configuration, storageId: string, repositoryId: string, path: string, force: bool): (r: Outcome<Configuration>)
    requires ValidConfiguration(c)
    ensures FindRepository(c, storageId, repositoryId).Failure? ==> r == Raised(FindRepository(c, storageId, repositoryId).error, c)
    ensures FindRepository(c, storageId, repositoryId).Success? ==>
              var repository := FindRepository(c, storageId, repositoryId).value;
              var d := Delete(l, repository.policy, repository.files, Resolve(path), force);
              && r.state == PutFiles(c, storageId, repositoryId, d.state)
              && (r.Raised? <==> d.Raised?)
              && (r.Raised? ==> r.error == d.error)
    ensures (FindRepository(c, storageId, repositoryId).Success?
             && Resolve(path) !in FindRepository(c, storageId, repositoryId).value.files.tree) ==> r == Done(c)
    ensures FindRepository(c, storageId, repositoryId).Success? ==> Exists(r.state, storageId, repositoryId, path) == Success(false)
    ensures Untouched(c, r.state, storageId, repositoryId)
  {
    match FindRepository(c, storageId, repositoryId)
    case Failure(e) => Raised(e, c)
    case Success(repository) =>
      var d := Delete(l, repository.policy, repository.files, Resolve(path), force);
      PutFilesUntouched(c, storageId, repositoryId, d.state);
      if Resolve(path) !in repository.files.tree then
        PutFilesSame(c, storageId, repositoryId);
        Done(c)
      else
        match d
        case Done(files) => Done(PutFiles(c, storageId, repositoryId, files))
        case Raised(e, files) => Raised(e, PutFiles(c, storageId, repositoryId, files))
  }

  /** `deleteTrash(storageId, repositoryId)`: the whole trash of the
      repository is dropped; its live files stay. */
  function DeleteTrashIn(c: Configuration, storageId: string, repositoryId: string): (r: Result<Configuration>)
    ensures FindRepository(c, storageId, repositoryId).Failure? ==> r == Failure(FindRepository(c, storageId, repositoryId).error)
    ensures FindRepository(c, storageId, repositoryId).Success? ==> r.Success?
    ensures r.Success? ==> FindRepository(c, storageId, repositoryId).Success? && Untouched(c, r.value, storageId, repositoryId)
    ensures r.Success? ==>
              var before := c.storages[storageId].repositories[repositoryId].files;
              var after := r.value.storages[storageId].repositories[repositoryId].files;
              after.tree == before.tree && after.trash == map[]
  {
    var repository :- FindRepository(c, storageId, repositoryId);
    PutFilesUntouched(c, storageId, repositoryId, EmptyTrash(repository.files));
    Success(PutFiles(c, storageId, repositoryId, EmptyTrash(repository.files)))
  }

  /** `undelete(storageId, repositoryId, path)`: the trashed files at or
      below the path return to the tree and leave the trash. */
  function UndeleteIn(c: Configuration, storageId: string, repositoryId: string, path: string): (r: Result<Configuration>)
    ensures FindRepository(c, storageId, repositoryId).Failure? ==> r == Failure(FindRepository(c, storageId, repositoryId).error)
    ensures FindRepository(c, storageId, repositoryId).Success? ==> r.Success?
    ensures r.Success? ==> FindRepository(c, storageId, repositoryId).Success? && Untouched(c, r.value, storageId, repositoryId)
    ensures r.Success? ==>
              var before := c.storages[storageId].repositories[repositoryId].files;
              var after := r.value.storages[storageId].repositories[repositoryId].files;
              && (forall q :: q in before.trash && IsPrefix(Resolve(path), q) ==> q in after.tree && after.tree[q] == File(before.trash[q]))
              && (forall q :: q in after.trash <==> q in before.trash && !IsPrefix(Resolve(path), q))
              && (forall q :: q in after.trash ==> after.trash[q] == before.trash[q])
              && (forall q :: q in before.tree && !(q in before.trash && IsPrefix(Resolve(path), q)) ==>
                    q in after.tree && after.tree[q] == before.tree[q])
              && (forall q :: q in after.tree && q !in before.tree ==>
                    exists x :: x in before.trash && IsPrefix(Resolve(path), x) && IsPrefix(q, x))
              && (forall q :: q in after.tree && q !in before.tree ==>
                    (q in before.trash && IsPrefix(Resolve(path), q)) || after.tree[q] == Directory)
              && (forall x, i :: x in before.trash && IsPrefix(Resolve(path), x) && 0 <= i < |x| ==> x[..i] in after.tree)
  {
    var repository :- FindRepository(c, storageId, repositoryId);
    PutFilesUntouched(c, storageId, repositoryId, RestoreTrash(repository.files, Resolve(path)));
    Success(PutFiles(c, storageId, repositoryId, RestoreTrash(repository.files, Resolve(path))))
  }

  /** `undeleteTrash(storageId, repositoryId)`: every trashed file returns,
      whether or not the repository has its trash enabled (a disabled trash
      only draws a warning). */
  function UndeleteTrashIn(c: Configuration, storageId: string, repositoryId: string): (r: Result<Configuration>)
    ensures FindRepository(c, storageId, repositoryId).Failure? ==> r == Failure(FindRepository(c, storageId, repositoryId).error)
    ensures FindRepository(c, storageId, repositoryId).Success? ==> r.Success?
    ensures r.Success? ==> FindRepository(c, storageId, repositoryId).Success? && Untouched(c, r.value, storageId, repositoryId)
    ensures r.Success? ==>
              var before := c.storages[storageId].repositories[repositoryId].files;
              var after := r.value.storages[storageId].repositories[repositoryId].files;
              && (forall q :: q in before.trash ==> q in after.tree && after.tree[q] == File(before.trash[q]))
              && after.trash == map[]
              && (forall q :: q in before.tree && q !in before.trash ==> q in after.tree && after.tree[q] == before.tree[q])
              && (forall q :: q in after.tree && q !in before.tree ==>
                    && (exists x :: x in before.trash && IsPrefix(q, x))
                    && (q in before.trash || after.tree[q] == Directory))
              && (forall x, i :: x in before.trash && 0 <= i < |x| ==> x[..i] in after.tree)
  {
    var repository :- FindRepository(c, storageId, repositoryId);
    PutFilesUntouched(c, storageId, repositoryId, RestoreAll(repository.files));
    Success(PutFiles(c, storageId, repositoryId, RestoreAll(repository.files)))
  }

  // ---- the global sweeps ----

  /** The reference for a sweep: every repository of `s` has `op` applied to its files. */
  function ApplyToStorage(s: Storage, op: RepositoryFiles -> RepositoryFiles): (r: Storage)
    ensures r.id == s.id && r.repositories.Keys == s.repositories.Keys
    ensures forall rid :: rid in r.repositories ==>
              r.repositories[rid] == s.repositories[rid].(files := op(s.repositories[rid].files))
  {
    s.(repositories := map rid | rid in s.repositories :: s.repositories[rid].(files := op(s.repositories[rid].files)))
  }

  /** The reference for a global sweep: every repository of every storage. */
  function ApplyToAll(c: Configuration, op: RepositoryFiles -> RepositoryFiles): (r: Configuration)
    ensures r.storages.Keys == c.storages.Keys
    ensures forall sid :: sid in r.storages ==> r.storages[sid] == ApplyToStorage(c.storages[sid], op)
  {
    Configuration(map sid | sid in c.storages :: ApplyToStorage(c.storages[sid], op))
  }

  /** The inner loop of a global sweep: the repositories of one storage, in
      whatever order the map yields them. */
  method SweepStorage(s: Storage, op: RepositoryFiles -> RepositoryFiles) returns (r: Storage)
    ensures r == ApplyToStorage(s, op)
  {
    r := s;
    var pending := s.repositories.Keys;
    while pending != {}
      invariant pending <= s.repositories.Keys
      invariant r.id == s.id && r.repositories.Keys == s.repositories.Keys
      invariant forall rid :: rid in r.repositories && rid in pending ==> r.repositories[rid] == s.repositories[rid]
      invariant forall rid :: rid in r.repositories && rid !in pending ==>
                  r.repositories[rid] == s.repositories[rid].(files := op(s.repositories[rid].files))
      decreases pending
    {
      var rid :| rid in pending;
      var repository := r.repositories[rid];
      r := r.(repositories := r.repositories[rid := repository.(files := op(repository.files))]);
      pending := pending - {rid};
    }
    assert r.repositories == ApplyToStorage(s, op).repositories;
  }

  /** The outer loop of a global sweep: every storage. */
  method SweepAll(c: Configuration, op: RepositoryFiles -> RepositoryFiles) returns (r: Configuration)
    ensures r == ApplyToAll(c, op)
  {
    r := c;
    var pending := c.storages.Keys;
    while pending != {}
      invariant pending <= c.storages.Keys
      invariant r.storages.Keys == c.storages.Keys
      invariant forall sid :: sid in r.storages && sid in pending ==> r.storages[sid] == c.storages[sid]
      invariant forall sid :: sid in r.storages && sid !in pending ==> r.storages[sid] == ApplyToStorage(c.storages[sid], op)
      decreases pending
    {
      var sid :| sid in pending;
      var swept := SweepStorage(r.storages[sid], op);
      r := Configuration(r.storages[sid := swept]);
      pending := pending - {sid};
    }
    assert r.storages == ApplyToAll(c, op).storages;
  }

  /** What `deleteTrash` does to one repository's files. */
  function EmptyTrash(f: RepositoryFiles): (r: RepositoryFiles)
    ensures r.tree == f.tree && r.trash == map[]
  {
    PurgeTrash(f, [])
  }

  /** What `undeleteTrash` does to one repository's files. */
  function RestoreAll(f: RepositoryFiles): (r: RepositoryFiles)
    ensures r.trash == map[]
    ensures forall q :: q in f.trash ==> q in r.tree && r.tree[q] == File(f.trash[q])
    ensures forall q :: q in f.tree && q !in f.trash ==> q in r.tree && r.tree[q] == f.tree[q]
    ensures forall q :: q in r.tree && q !in f.tree ==> exists x :: x in f.trash && IsPrefix(q, x)
    ensures forall q :: q in r.tree && q !in f.tree ==> q in f.trash || r.tree[q] == Directory
    ensures forall x, i :: x in f.trash && 0 <= i < |x| ==> x[..i] in r.tree
  {
    RestoreTrash(f, [])
  }

  /** The global `deleteTrash()`: every repository's trash is emptied,
      including those that do not allow deletion (they only draw a warning). */
  method DeleteAllTrash(c: Configuration) returns (r: Configuration)
    ensures r.storages.Keys == c.storages.Keys
    ensures forall sid :: sid in r.storages ==>
              r.storages[sid].id == c.storages[sid].id
              && r.storages[sid].repositories.Keys == c.storages[sid].repositories.Keys
    ensures forall sid, rid :: sid in r.storages && rid in r.storages[sid].repositories ==>
              var before := c.storages[sid].repositories[rid];
              var after := r.storages[sid].repositories[rid];
              after.id == before.id && after.policy == before.policy
              && after.files.tree == before.files.tree && after.files.trash == map[]
    ensures r == ApplyToAll(c, EmptyTrash)
  {
    r := SweepAll(c, EmptyTrash);
  }

  /** The global `undeleteTrash()`: every repository's trashed files return
      to its tree, including repositories whose trash is disabled. */
  method UndeleteAllTrash(c: Configuration) returns (r: Configuration)
    ensures r.storages.Keys == c.storages.Keys
    ensures forall sid :: sid in r.storages ==>
              r.storages[sid].id == c.storages[sid].id
              && r.storages[sid].repositories.Keys == c.storages[sid].repositories.Keys
    ensures forall sid, rid :: sid in r.storages && rid in r.storages[sid].repositories ==>
              var before := c.storages[sid].repositories[rid];
              var after := r.storages[sid].repositories[rid];
              && after.id == before.id && after.policy == before.policy
              && after.files.trash == map[]
              && (forall q :: q in before.files.trash ==> q in after.files.tree && after.files.tree[q] == File(before.files.trash[q]))
              && (forall q :: q in before.files.tree && q !in before.files.trash ==> q in after.files.tree && after.files.tree[q] == before.files.tree[q])
    ensures r == ApplyToAll(c, RestoreAll)
  {
    r := SweepAll(c, RestoreAll);
  }
}

=== FILE: repositories.dfy ===
/** Storages, repositories and the per-repository file state the layout
    providers act on. The storage provider and the repository file-system
    provider (which physically resolve, delete, trash and restore files) are
    represented by the abstract updates `DeleteEntry`, `PurgeTrash` and
    `RestoreTrash` on an immutable `RepositoryFiles` value. */
module Repositories {
  import opened Wrappers
  import opened Paths

  /** File contents are opaque bytes. */
  type Content = seq<bv8>

  datatype Entry = File(content: Content) | Directory

  /** The repository's file tree, flattened: every present file or directory
      under its resolved path. */
  type Tree = map<Path, Entry>

  /** What the storage layer holds for one repository: its live tree and the
      files kept in its trash area, under the paths they were deleted from. */
  datatype RepositoryFiles = RepositoryFiles(tree: Tree, trash: map<Path, Content>)

  /** The policy flags a repository's configuration carries. */
  datatype Policy = Policy(allowsForceDeletion: bool, allowsDeletion: bool, trashEnabled: bool)

  datatype Repository = Repository(id: string, policy: Policy, files: RepositoryFiles)

  datatype Storage = Storage(id: string, repositories: map<string, Repository>)

  datatype Configuration = Configuration(storages: map<string, Storage>)

  /** Every entry other than the root sits in a directory that is present. */
  predicate ParentsAreDirectories(t: Tree) {
    forall p :: p in t && |p| > 0 ==> p[..|p| - 1] in t && t[p[..|p| - 1]].Directory?
  }

  /** The shape a real file system has: a tree whose root, when present, is a directory. */
  predicate Valid(f: RepositoryFiles) {
    && ([] in f.tree ==> f.tree[[]].Directory?)
    && ParentsAreDirectories(f.tree)
  }

  /** Some entry of `t` lies strictly below `d`. */
  predicate HasEntriesBelow(t: Tree, d: Path) {
    exists p :: p in t && IsStrictPrefix(d, p)
  }

  /** `Files.delete` through the repository's file-system provider: fails on a
      missing path and on a non-empty directory; a deleted file is kept in the
      trash when the repository has trash enabled. */
  function DeleteEntry(f: RepositoryFiles, trashEnabled: bool, p: Path): (r: Result<RepositoryFiles>)
    ensures p !in f.tree <==> r == Failure(NoSuchFile(p))
    ensures p in f.tree && f.tree[p].Directory? && HasEntriesBelow(f.tree, p) <==> r == Failure(DirectoryNotEmpty(p))
    ensures r.Success? ==> forall q :: q in r.value.tree <==> q in f.tree && q != p
    ensures r.Success? ==> forall q :: q in r.value.tree ==> r.value.tree[q] == f.tree[q]
    ensures r.Success? && f.tree[p].File? && trashEnabled ==> r.value.trash == f.trash[p := f.tree[p].content]
    ensures r.Success? && (f.tree[p].Directory? || !trashEnabled) ==> r.value.trash == f.trash
  {
    if p !in f.tree then
      Failure(NoSuchFile(p))
    else if f.tree[p].Directory? && HasEntriesBelow(f.tree, p) then
      Failure(DirectoryNotEmpty(p))
    else
      var trash := if f.tree[p].File? && trashEnabled then f.trash[p := f.tree[p].content] else f.trash;
      Success(RepositoryFiles(f.tree - {p}, trash))
  }

  /** A step that throws before it changes anything, seen as an outcome: on
      an exception the files are as they were. */
  function Atomic(f: RepositoryFiles, r: Result<RepositoryFiles>): (o: Outcome<RepositoryFiles>)
    ensures r.Success? ==> o == Done(r.value)
    ensures r.Failure? ==> o == Raised(r.error, f)
  {
    match r
    case Success(g) => Done(g)
    case Failure(e) => Raised(e, f)
  }

  /** The provider's `deleteTrash(path)`: permanently drops whatever the trash
      holds at or below `p` (the whole trash when `p` is the root). */
  function PurgeTrash(f: RepositoryFiles, p: Path): (r: RepositoryFiles)
    ensures r.tree == f.tree
    ensures forall q :: q in r.trash <==> q in f.trash && !IsPrefix(p, q)
    ensures forall q :: q in r.trash ==> r.trash[q] == f.trash[q]
  {
    RepositoryFiles(f.tree, map q | q in f.trash && !IsPrefix(p, q) :: f.trash[q])
  }

  /** The provider's `restoreTrash(path)`: every trashed file at or below `p`
      returns to the tree (missing parent directories are recreated) and
      leaves the trash. */
  function RestoreTrash(f: RepositoryFiles, p: Path): (r: RepositoryFiles)
    ensures forall q :: q in f.trash && IsPrefix(p, q) ==> q in r.tree && r.tree[q] == File(f.trash[q])
    ensures forall q :: q in r.trash <==> q in f.trash && !IsPrefix(p, q)
    ensures forall q :: q in r.trash ==> r.trash[q] == f.trash[q]
    ensures forall q :: q in f.tree && !(q in f.trash && IsPrefix(p, q)) ==> q in r.tree && r.tree[q] == f.tree[q]
    ensures forall q :: q in r.tree && q !in f.tree ==> (q in f.trash && IsPrefix(p, q)) || r.tree[q] == Directory
    ensures forall q :: q in r.tree && q !in f.tree ==> exists x :: x in f.trash && IsPrefix(p, x) && IsPrefix(q, x)
    ensures forall x, i :: x in f.trash && IsPrefix(p, x) && 0 <= i < |x| ==> x[..i] in r.tree
  {
    var restored := set q | q in f.trash && IsPrefix(p, q);
    var ancestors := set q, i | q in restored && 0 <= i < |q| :: q[..i];
    var tree := map q | q in f.tree.Keys + restored + ancestors ::
      if q in restored then File(f.trash[q])
      else if q in f.tree then f.tree[q]
      else Directory;
    RepositoryFiles(tree, f.trash - restored)
  }

  /** The trash entries at or below `p` fit back into the tree: none is the
      root, none lands on a live directory, none lies below a live file, and
      none lies below another of them. Restoring such entries keeps the
      tree's shape. */
  ghost predicate Restorable(f: RepositoryFiles, p: Path) {
    forall x :: x in f.trash && IsPrefix(p, x) ==> FitsBack(f, p, x)
  }

  /** The trashed file `x` can return to the tree alongside the others below `p`. */
  ghost predicate FitsBack(f: RepositoryFiles, p: Path, x: Path) {
    && x != []
    && (x in f.tree ==> f.tree[x].File?)
    && (forall i :: 0 <= i < |x| && x[..i] in f.tree ==> f.tree[x[..i]].Directory?)
    && (forall i :: 0 <= i < |x| ==> !(x[..i] in f.trash && IsPrefix(p, x[..i])))
  }

  /** What the restore guarantees about the tree it builds, stated apart from
      how it builds it. */
  ghost predicate RestoreShape(f: RepositoryFiles, p: Path, r: RepositoryFiles) {
    && (forall q :: q in f.trash && IsPrefix(p, q) ==> q in r.tree && r.tree[q] == File(f.trash[q]))
    && (forall q :: q in f.tree && !(q in f.trash && IsPrefix(p, q)) ==> q in r.tree && r.tree[q] == f.tree[q])
    && (forall q :: q in r.tree && q !in f.tree ==> (q in f.trash && IsPrefix(p, q)) || r.tree[q] == Directory)
    && (forall q :: q in r.tree && q !in f.tree ==> exists x :: x in f.trash && IsPrefix(p, x) && IsPrefix(q, x))
    && (forall x, i :: x in f.trash && IsPrefix(p, x) && 0 <= i < |x| ==> x[..i] in r.tree)
  }

  /** Every proper ancestor of a restored file is a directory after the restore. */
  lemma RestoredAncestorIsDirectory(f: RepositoryFiles, p: Path, r: RepositoryFiles, x: Path, i: int)
    requires RestoreShape(f, p, r) && Restorable(f, p)
    requires x in f.trash && IsPrefix(p, x) && 0 <= i < |x|
    ensures x[..i] in r.tree && r.tree[x[..i]].Directory?
  {
    assert FitsBack(f, p, x);
    var a := x[..i];
    assert !(a in f.trash && IsPrefix(p, a));
    if a in f.tree {
      assert r.tree[a] == f.tree[a];
    }
  }

  /** A live entry that the restore leaves alone still sits in a directory. */
  lemma KeptParentIsDirectory(f: RepositoryFiles, p: Path, r: RepositoryFiles, q: Path)
    requires RestoreShape(f, p, r) && Valid(f) && Restorable(f, p)
    requires q in f.tree && |q| > 0
    ensures q[..|q| - 1] in r.tree && r.tree[q[..|q| - 1]].Directory?
  {
    var parent := q[..|q| - 1];
    assert parent in f.tree && f.tree[parent].Directory?;
  }

  /** A directory the restore recreates sits below a restored file. */
  lemma CreatedParentIsDirectory(f: RepositoryFiles, p: Path, r: RepositoryFiles, q: Path)
    requires RestoreShape(f, p, r) && Restorable(f, p)
    requires q in r.tree && q !in f.tree && |q| > 0
    ensures q[..|q| - 1] in r.tree && r.tree[q[..|q| - 1]].Directory?
  {
    var x :| x in f.trash && IsPrefix(p, x) && IsPrefix(q, x);
    PrefixParent(q, x);
    RestoredAncestorIsDirectory(f, p, r, x, |q| - 1);
  }

  /** The parent of a non-empty prefix of `x` is itself a prefix of `x`. */
  lemma PrefixParent(q: Path, x: Path)
    requires IsPrefix(q, x) && |q| > 0
    ensures q[..|q| - 1] == x[..|q| - 1]
  {
    assert x[..|q|][..|q| - 1] == x[..|q| - 1];
  }

  /** After a restore that fits, every entry other than the root sits in a directory. */
  lemma RestoredParentIsDirectory(f: RepositoryFiles, p: Path, r: RepositoryFiles, q: Path)
    requires RestoreShape(f, p, r) && Valid(f) && Restorable(f, p)
    requires q in r.tree && |q| > 0
    ensures q[..|q| - 1] in r.tree && r.tree[q[..|q| - 1]].Directory?
  {
    if q in f.trash && IsPrefix(p, q) {
      RestoredAncestorIsDirectory(f, p, r, q, |q| - 1);
    } else if q in f.tree {
      KeptParentIsDirectory(f, p, r, q);
    } else {
      CreatedParentIsDirectory(f, p, r, q);
    }
  }

  /** Restoring what fits back keeps the shape of a real file system. */
  lemma RestorePreservesValid(f: RepositoryFiles, p: Path)
    requires Valid(f) && Restorable(f, p)
    ensures Valid(RestoreTrash(f, p))
  {
    var r := RestoreTrash(f, p);
    assert RestoreShape(f, p, r);
    RootStaysDirectory(f, p, r);
    forall q | q in r.tree && |q| > 0
      ensures q[..|q| - 1] in r.tree && r.tree[q[..|q| - 1]].Directory?
    {
      RestoredParentIsDirectory(f, p, r, q);
    }
  }

  /** The root is never a restored file, so it stays a directory. */
  lemma RootStaysDirectory(f: RepositoryFiles, p: Path, r: RepositoryFiles)
    requires RestoreShape(f, p, r) && Valid(f) && Restorable(f, p)
    ensures [] in r.tree ==> r.tree[[]].Directory?
  {
  }

  // ---- the configuration ----

  /** Every storage and repository is filed under its own id. */
  predicate ConsistentIds(c: Configuration) {
    forall sid :: sid in c.storages ==>
      && c.storages[sid].id == sid
      && forall rid :: rid in c.storages[sid].repositories ==> c.storages[sid].repositories[rid].id == rid
  }

  /** `getConfiguration().getStorage(sid).getRepository(rid)`; a lookup that
      yields `null` in Strongbox's code is an error here. */
  function FindRepository(c: Configuration, sid: string, rid: string): (r: Result<Repository>)
    ensures sid !in c.storages <==> r == Failure(NoSuchStorage(sid))
    ensures sid in c.storages && rid !in c.storages[sid].repositories <==> r == Failure(NoSuchRepository(rid))
    ensures r.Success? ==> sid in c.storages && rid in c.storages[sid].repositories
                           && r.value == c.storages[sid].repositories[rid]
  {
    if sid !in c.storages then Failure(NoSuchStorage(sid))
    else if rid !in c.storages[sid].repositories then Failure(NoSuchRepository(rid))
    else Success(c.storages[sid].repositories[rid])
  }

  /** Records new file state for one repository; every other repository and
      every storage's membership stay as they were. */
  function PutFiles(c: Configuration, sid: string, rid: string, files: RepositoryFiles): (r: Configuration)
    requires sid in c.storages && rid in c.storages[sid].repositories
    ensures r.storages.Keys == c.storages.Keys
    ensures forall s :: s in r.storages ==> r.storages[s].id == c.storages[s].id
    ensures forall s :: s in r.storages ==> r.storages[s].repositories.Keys == c.storages[s].repositories.Keys
    ensures r.storages[sid].repositories[rid]
         == c.storages[sid].repositories[rid].(files := files)
    ensures forall s, q :: s in r.storages && q in r.storages[s].repositories && (s, q) != (sid, rid) ==>
              r.storages[s].repositories[q] == c.storages[s].repositories[q]
  {
    var st := c.storages[sid];
    var repo := st.repositories[rid];
    Configuration(c.storages[sid := st.(repositories := st.repositories[rid := repo.(files := files)])])
  }

  /** Recording a repository's own files again changes nothing. */
  lemma PutFilesSame(c: Configuration, sid: string, rid: string)
    requires sid in c.storages && rid in c.storages[sid].repositories
    ensures PutFiles(c, sid, rid, c.storages[sid].repositories[rid].files) == c
  {
    var st := c.storages[sid];
    assert st.repositories[rid := st.repositories[rid]] == st.repositories;
    assert c.storages[sid := st] == c.storages;
  }

  /** Every storage and repository stays, with its id and policy, and every
      repository other than (sid, rid) keeps its files too. */
  ghost predicate Untouched(c: Configuration, d: Configuration, sid: string, rid: string) {
    && d.storages.Keys == c.storages.Keys
    && (forall s :: s in d.storages ==> d.storages[s].id == c.storages[s].id)
    && (forall s :: s in d.storages ==> d.storages[s].repositories.Keys == c.storages[s].repositories.Keys)
    && (forall s, q :: s in d.storages && q in d.storages[s].repositories ==>
          && d.storages[s].repositories[q].id == c.storages[s].repositories[q].id
          && d.storages[s].repositories[q].policy == c.storages[s].repositories[q].policy
          && ((s, q) != (sid, rid) ==> d.storages[s].repositories[q] == c.storages[s].repositories[q]))
  }

  /** Recording new files for one repository touches nothing else. */
  lemma PutFilesUntouched(c: Configuration, sid: string, rid: string, files: RepositoryFiles)
    requires sid in c.storages && rid in c.storages[sid].repositories
    ensures var d := PutFiles(c, sid, rid, files);
            && Untouched(c, d, sid, rid)
            && d.storages[sid].repositories[rid].files == files
  {
  }

  /** Every repository's files have the shape of a real file system. */
  predicate ValidConfiguration(c: Configuration) {
    forall sid, rid :: sid in c.storages && rid in c.storages[sid].repositories ==>
      Valid(c.storages[sid].repositories[rid].files)
  }
}

=== FILE: text.dfy ===
/** The handful of `java.lang.String` operations the layout providers use:
    `contains`, `endsWith`, `toLowerCase` (ASCII letters) and `replaceAll("-", "")`. */
module Text {

  /** `t` occurs in `s` starting at index `i`. */
  ghost predicate OccursAt(s: string, t: string, i: int) {
    0 <= i && i + |t| <= |s| && s[i..i + |t|] == t
  }

  /** `s.contains(t)`: `t` occurs in `s` as a contiguous substring. */
  function Contains(s: string, t: string): (b: bool)
    ensures b <==> exists i :: OccursAt(s, t, i)
  {
    if |t| > |s| then
      false
    else if s[..|t|] == t then
      assert OccursAt(s, t, 0);
      true
    else
      OccurrencesShift(s, t);
      Contains(s[1..], t)
  }

  /** An occurrence of `t` in `s` is either at index 0 or an occurrence in `s[1..]`. */
  lemma OccurrencesShift(s: string, t: string)
    requires |t| <= |s| && |s| > 0
    ensures (exists i :: OccursAt(s, t, i)) <==> (s[..|t|] == t || exists j :: OccursAt(s[1..], t, j))
  {
    if i :| OccursAt(s, t, i) {
      if i > 0 {
        assert s[1..][i - 1..i - 1 + |t|] == s[i..i + |t|];
        assert OccursAt(s[1..], t, i - 1);
      }
    }
    if j :| OccursAt(s[1..], t, j) {
      assert s[1..][j..j + |t|] == s[j + 1..j + 1 + |t|];
      assert OccursAt(s, t, j + 1);
    }
    if s[..|t|] == t {
      assert OccursAt(s, t, 0);
    }
  }

  /** `s.endsWith(suffix)`. */
  predicate EndsWith(s: string, suffix: string) {
    |suffix| <= |s| && s[|s| - |suffix|..] == suffix
  }

  /** `Character.toLowerCase` restricted to the ASCII letters, the only ones
      that occur in digest algorithm names. */
  function LowerChar(c: char): (r: char)
    ensures 'A' <= c <= 'Z' ==> 'a' <= r <= 'z'
    ensures !('A' <= c <= 'Z') ==> r == c
  {
    if 'A' <= c <= 'Z' then (c as int - 'A' as int + 'a' as int) as char else c
  }

  /** `s.toLowerCase()` over ASCII. */
  function Lower(s: string): (r: string)
    ensures |r| == |s|
    ensures forall i :: 0 <= i < |s| ==> r[i] == LowerChar(s[i])
  {
    if s == [] then [] else [LowerChar(s[0])] + Lower(s[1..])
  }

  /** `s.replaceAll(x, "")` for a one-character pattern `x`: every `x` removed. */
  function Without(s: string, x: char): (r: string)
    ensures x !in r
    ensures |r| <= |s|
    ensures x !in s ==> r == s
  {
    if s == [] then []
    else if s[0] == x then Without(s[1..], x)
    else [s[0]] + Without(s[1..], x)
  }

  /** Removing `x` keeps exactly the other characters, in their order. */
  lemma {:induction false} WithoutAppend(s: string, t: string, x: char)
    ensures Without(s + t, x) == Without(s, x) + Without(t, x)
  {
    if s == [] {
      assert s + t == t;
    } else {
      assert (s + t)[1..] == s[1..] + t;
      WithoutAppend(s[1..], t, x);
    }
  }
}

=== FILE: walk_execution.dfy ===
/** What running the directory walk does to a repository: it never fails,
    it removes exactly the walked subtree, and the trash ends up as the
    policy dictates for the files that were in it. */
module WalkExecution {
  import opened Wrappers
  import opened Paths
  import opened Repositories
  import opened Layouts
  import opened Deletion
  import opened DirectoryWalk

  /** The files among the entries `R` of `t`, with their contents. */
  ghost function FilesOf(t: Tree, R: set<Path>): map<Path, Content> {
    map p | p in R && p in t && t[p].File? :: t[p].content
  }

  /** The trash after deleting the files `F` one by one: a permitted forced
      delete purges everything at or below them, a soft delete into an
      enabled trash keeps their contents, otherwise the trash is untouched. */
  ghost function Swept(policy: Policy, force: bool, trash: map<Path, Content>, F: map<Path, Content>): map<Path, Content> {
    if Purges(policy, force) then map q | q in trash && !UnderAny(F.Keys, q) :: trash[q]
    else if policy.trashEnabled then trash + F
    else trash
  }

  /** The repository after the entries `R` are deleted and their files swept. */
  ghost function Removed(policy: Policy, force: bool, f: RepositoryFiles, R: set<Path>): RepositoryFiles {
    RepositoryFiles(f.tree - R, Swept(policy, force, f.trash, FilesOf(f.tree, R)))
  }

  /** On the entries at or below `E`, `tree` holds exactly what `t` holds. */
  ghost predicate AgreesUnder(tree: Tree, t: Tree, E: set<Path>) {
    && (forall p :: p in tree && UnderAny(E, p) ==> p in t)
    && (forall p :: p in t && UnderAny(E, p) ==> p in tree && tree[p] == t[p])
  }

  lemma SweptNothing(policy: Policy, force: bool, trash: map<Path, Content>)
    ensures Swept(policy, force, trash, map[]) == trash
  {
    var none: map<Path, Content> := map[];
    assert forall q :: !UnderAny(none.Keys, q);
  }

  /** Sweeping `F1` and then `F2` is sweeping both at once. */
  lemma SweptTwice(policy: Policy, force: bool, trash: map<Path, Content>, F1: map<Path, Content>, F2: map<Path, Content>)
    ensures Swept(policy, force, Swept(policy, force, trash, F1), F2) == Swept(policy, force, trash, F1 + F2)
  {
    if Purges(policy, force) {
      forall q
        ensures UnderAny((F1 + F2).Keys, q) <==> UnderAny(F1.Keys, q) || UnderAny(F2.Keys, q)
      {
        if UnderAny((F1 + F2).Keys, q) {
          var c :| c in (F1 + F2).Keys && IsPrefix(c, q);
          assert c in F1.Keys || c in F2.Keys;
        }
      }
    }
  }

  lemma FilesOfUnion(t: Tree, A: set<Path>, B: set<Path>)
    ensures FilesOf(t, A + B) == FilesOf(t, A) + FilesOf(t, B)
  {
  }

  /** Running a single step is performing it. */
  lemma RunSingle(l: Layout, policy: Policy, f: RepositoryFiles, s: Step, force: bool)
    ensures Run(l, policy, f, [s], force) == Perform(l, policy, f, s, force)
  {
    assert [s][1..] == [];
  }

  /** A successful prefix of the steps hands its result to the rest. */
  lemma RunThen(l: Layout, policy: Policy, f: RepositoryFiles, a: seq<Step>, g: RepositoryFiles, b: seq<Step>, force: bool)
    requires Run(l, policy, f, a, force) == Done(g)
    ensures Run(l, policy, f, a + b, force) == Run(l, policy, g, b, force)
  {
    RunAppend(l, policy, f, a, b, force);
  }

  /** `doDeletePath` on a file removes it and sweeps it. */
  lemma DeleteFileSweeps(policy: Policy, f: RepositoryFiles, c: Path, content: Content, force: bool)
    requires c in f.tree && f.tree[c] == File(content)
    ensures BaseDoDeletePath(policy, f, c, force)
         == Success(RepositoryFiles(f.tree - {c}, Swept(policy, force, f.trash, map[c := content])))
  {
    var r := BaseDoDeletePath(policy, f, c, force);
    assert r.Success?;
    assert r.value.tree == f.tree - {c};
    var expected := Swept(policy, force, f.trash, map[c := content]);
    if Purges(policy, force) {
      forall q
        ensures UnderAny(map[c := content].Keys, q) <==> IsPrefix(c, q)
      {
        if IsPrefix(c, q) {
          assert c in map[c := content].Keys;
        }
      }
      assert r.value.trash.Keys == expected.Keys;
      assert r.value.trash == expected;
    } else if policy.trashEnabled {
      assert f.trash[c := content] == f.trash + map[c := content];
    }
  }

  /** Deleting one file of the walk. */
  lemma VisitFileRuns(l: Layout, policy: Policy, f: RepositoryFiles, c: Path, content: Content, force: bool)
    requires c in f.tree && f.tree[c] == File(content)
    ensures Run(l, policy, f, [VisitFile(c)], force)
         == Done(RepositoryFiles(f.tree - {c}, Swept(policy, force, f.trash, map[c := content])))
  {
    RunSingle(l, policy, f, VisitFile(c), force);
    DeleteFileSweeps(policy, f, c, content, force);
  }

  /** Removing a directory the walk has emptied. */
  lemma PostVisitRuns(l: Layout, policy: Policy, g: RepositoryFiles, d: Path, force: bool)
    requires d in g.tree && g.tree[d].Directory? && !HasEntriesBelow(g.tree, d)
    ensures Run(l, policy, g, [PostVisitDirectory(d)], force) == Done(RepositoryFiles(g.tree - {d}, g.trash))
  {
    RunSingle(l, policy, g, PostVisitDirectory(d), force);
  }

  /** `d` and everything below it. */
  lemma SubtreeSplit(t: Tree, d: Path)
    requires d in t && t[d].Directory?
    ensures Subtree(t, d) == Below(t, d) + {d}
    ensures FilesOf(t, Subtree(t, d)) == FilesOf(t, Below(t, d))
  {
    forall p | p in Subtree(t, d) && p != d
      ensures p in Below(t, d)
    {
      assert |p| != |d|;
    }
    assert d[..|d|] == d;
  }

  /** Agreeing at or below `d` is agreeing at or below its children. */
  lemma AgreesOnChildren(tree: Tree, t: Tree, d: Path)
    requires AgreesUnder(tree, t, {d})
    ensures AgreesUnder(tree, t, ChildPaths(t, d))
  {
    forall p | UnderAny(ChildPaths(t, d), p)
      ensures UnderAny({d}, p)
    {
      var c :| c in ChildPaths(t, d) && IsPrefix(c, p);
      assert p[..|d|] == p[..|c|][..|d|];
    }
  }

  /** Once everything of `t` below `d` is gone, `d` is an empty directory. */
  lemma EmptiedBelow(tree: Tree, t: Tree, d: Path)
    requires d in t && t[d].Directory? && AgreesUnder(tree, t, {d})
    ensures var g := tree - Below(t, d);
            d in g && g[d].Directory? && !HasEntriesBelow(g, d)
  {
    assert d[..|d|] == d;
    assert UnderAny({d}, d);
    forall p | p in tree && IsStrictPrefix(d, p)
      ensures p in Below(t, d)
    {
      assert UnderAny({d}, p);
    }
  }

  /** Running the walk of directory `d` removes `d` and everything below it
      and sweeps the files among them. */
  lemma {:induction false} WalkDirectoryRuns(l: Layout, policy: Policy, f: RepositoryFiles, t: Tree, d: Path, force: bool)
    requires ParentsAreDirectories(t) && d in t && t[d].Directory?
    requires AgreesUnder(f.tree, t, {d})
    ensures Run(l, policy, f, WalkDirectory(t, d), force)
         == Done(RepositoryFiles(f.tree - Subtree(t, d), Swept(policy, force, f.trash, FilesOf(t, Subtree(t, d)))))
    decreases Below(t, d), 1, 0
  {
    var kids := ChildPaths(t, d);
    AgreesOnChildren(f.tree, t, d);
    WalkEntriesRuns(l, policy, f, t, d, kids, force);
    BelowIsRegionOfChildren(t, d);
    var g := RepositoryFiles(f.tree - Below(t, d), Swept(policy, force, f.trash, FilesOf(t, Below(t, d))));
    assert WalkDirectory(t, d) == WalkEntries(t, d, kids) + [PostVisitDirectory(d)];
    RunThen(l, policy, f, WalkEntries(t, d, kids), g, [PostVisitDirectory(d)], force);
    EmptiedBelow(f.tree, t, d);
    PostVisitRuns(l, policy, g, d, force);
    SubtreeSplit(t, d);
    assert g.tree - {d} == f.tree - Subtree(t, d);
  }

  /** Running the walk of the pending `entries` of `d` removes them and
      everything below them and sweeps the files among them. */
  lemma {:induction false} WalkEntriesRuns(l: Layout, policy: Policy, f: RepositoryFiles, t: Tree, d: Path, entries: set<Path>, force: bool)
    requires ParentsAreDirectories(t) && entries <= ChildPaths(t, d)
    requires AgreesUnder(f.tree, t, entries)
    ensures Run(l, policy, f, WalkEntries(t, d, entries), force)
         == Done(RepositoryFiles(f.tree - Region(t, entries), Swept(policy, force, f.trash, FilesOf(t, Region(t, entries)))))
    decreases Below(t, d), 0, |entries|
  {
    if entries == {} {
      assert Region(t, entries) == {};
      assert FilesOf(t, {}) == map[];
      SweptNothing(policy, force, f.trash);
      assert f.tree - {} == f.tree;
    } else {
      var c := Pick(entries);
      var rest := entries - {c};
      ChildBelowShrinks(t, d, c);
      var F1 := FilesOf(t, Subtree(t, c));
      var f1 := RepositoryFiles(f.tree - Subtree(t, c), Swept(policy, force, f.trash, F1));
      FirstEntryRuns(l, policy, f, t, d, entries, c, force);
      RestAgrees(f.tree, t, d, entries, c);
      WalkEntriesRuns(l, policy, f1, t, d, rest, force);
      RunThen(l, policy, f, if t[c].File? then [VisitFile(c)] else WalkDirectory(t, c), f1, WalkEntries(t, d, rest), force);
      RegionComposes(policy, force, f, t, entries, c);
    }
  }

  /** Removing the subtree of one entry and then the region of the rest is
      removing the region of all the entries. */
  lemma RegionComposes(policy: Policy, force: bool, f: RepositoryFiles, t: Tree, entries: set<Path>, c: Path)
    requires c in entries
    ensures var f1 := RepositoryFiles(f.tree - Subtree(t, c), Swept(policy, force, f.trash, FilesOf(t, Subtree(t, c))));
            var rest := entries - {c};
            var whole := RepositoryFiles(f.tree - Region(t, entries), Swept(policy, force, f.trash, FilesOf(t, Region(t, entries))));
            RepositoryFiles(f1.tree - Region(t, rest), Swept(policy, force, f1.trash, FilesOf(t, Region(t, rest)))) == whole
  {
    var rest := entries - {c};
    RegionSplit(t, entries, c);
    FilesOfUnion(t, Subtree(t, c), Region(t, rest));
    SweptTwice(policy, force, f.trash, FilesOf(t, Subtree(t, c)), FilesOf(t, Region(t, rest)));
    assert (f.tree - Subtree(t, c)) - Region(t, rest) == f.tree - Region(t, entries);
  }

  /** The walk of the first entry of `d` removes that entry's subtree. */
  lemma {:induction false} FirstEntryRuns(l: Layout, policy: Policy, f: RepositoryFiles, t: Tree, d: Path, entries: set<Path>, c: Path, force: bool)
    requires ParentsAreDirectories(t) && entries <= ChildPaths(t, d) && c in entries
    requires AgreesUnder(f.tree, t, entries)
    ensures Run(l, policy, f, if t[c].File? then [VisitFile(c)] else WalkDirectory(t, c), force)
         == Done(RepositoryFiles(f.tree - Subtree(t, c), Swept(policy, force, f.trash, FilesOf(t, Subtree(t, c)))))
    decreases Below(t, d), 0, 0
  {
    ChildBelowShrinks(t, d, c);
    assert c[..|c|] == c;
    assert UnderAny(entries, c);
    if t[c].File? {
      NothingBelowFile(t, c);
      assert FilesOf(t, {c}) == map[c := t[c].content];
      VisitFileRuns(l, policy, f, c, t[c].content, force);
    } else {
      forall p | UnderAny({c}, p)
        ensures UnderAny(entries, p)
      {
      }
      WalkDirectoryRuns(l, policy, f, t, c, force);
    }
  }

  /** After the subtree of one entry is gone, the tree still agrees with `t`
      below the other entries. */
  lemma RestAgrees(tree: Tree, t: Tree, d: Path, entries: set<Path>, c: Path)
    requires entries <= ChildPaths(t, d) && c in entries
    requires AgreesUnder(tree, t, entries)
    ensures AgreesUnder(tree - Subtree(t, c), t, entries - {c})
  {
    forall p | UnderAny(entries - {c}, p)
      ensures UnderAny(entries, p) && p !in Subtree(t, c)
    {
      var c' :| c' in entries - {c} && IsPrefix(c', p);
      assert c[..|c|] == c;
      ChildrenUnrelated(t, d, c, c', c, p);
    }
  }
}

=== FILE: walk_order.dfy ===
/** What the directory walk visits and in which order: every entry of the
    subtree exactly once, files as file visits and directories as post-visits,
    each directory after everything below it, the walked directory last. */
module WalkOrder {
  import opened Paths
  import opened Repositories
  import opened DirectoryWalk

  /** The trace `w` visits exactly the entries `R` of `t`, each once, files by
      `VisitFile` and directories by `PostVisitDirectory`, and every directory
      only after everything below it. */
  ghost predicate Covers(t: Tree, R: set<Path>, w: seq<Step>) {
    && (forall i :: 0 <= i < |w| ==> w[i].path in R && w[i].path in t && (w[i].VisitFile? <==> t[w[i].path].File?))
    && (forall p :: p in R ==> exists i :: 0 <= i < |w| && w[i].path == p)
    && (forall i, j :: 0 <= i < j < |w| ==> w[i].path != w[j].path)
    && (forall i, j :: 0 <= i < |w| && 0 <= j < |w| && w[j].PostVisitDirectory? && IsStrictPrefix(w[j].path, w[i].path) ==> i < j)
  }

  /** Two unrelated sets of entries: no path of one is a prefix of a path of the other. */
  ghost predicate Unrelated(R1: set<Path>, R2: set<Path>) {
    forall a, b :: a in R1 && b in R2 ==> !IsPrefix(a, b) && !IsPrefix(b, a)
  }

  lemma CoversAppend(t: Tree, R1: set<Path>, w1: seq<Step>, R2: set<Path>, w2: seq<Step>)
    requires Covers(t, R1, w1) && Covers(t, R2, w2) && Unrelated(R1, R2)
    ensures Covers(t, R1 + R2, w1 + w2)
  {
    var w := w1 + w2;
    forall i | 0 <= i < |w|
      ensures w[i].path in R1 + R2 && w[i].path in t && (w[i].VisitFile? <==> t[w[i].path].File?)
    {
      if i >= |w1| { assert w[i] == w2[i - |w1|]; }
    }
    forall p | p in R1 + R2
      ensures exists i :: 0 <= i < |w| && w[i].path == p
    {
      if p in R1 {
        var i :| 0 <= i < |w1| && w1[i].path == p;
        assert w[i] == w1[i];
      } else {
        var i :| 0 <= i < |w2| && w2[i].path == p;
        assert w[|w1| + i] == w2[i];
      }
    }
    forall i, j | 0 <= i < j < |w|
      ensures w[i].path != w[j].path
    {
      if j < |w1| {
        assert w[i] == w1[i] && w[j] == w1[j];
      } else if i >= |w1| {
        assert w[i] == w2[i - |w1|] && w[j] == w2[j - |w1|];
      } else {
        assert w[i] == w1[i] && w[j] == w2[j - |w1|];
        assert w1[i].path in R1 && w2[j - |w1|].path in R2;
      }
    }
    forall i, j | 0 <= i < |w| && 0 <= j < |w| && w[j].PostVisitDirectory? && IsStrictPrefix(w[j].path, w[i].path)
      ensures i < j
    {
      if i < |w1| && j < |w1| {
        assert w[i] == w1[i] && w[j] == w1[j];
      } else if i >= |w1| && j >= |w1| {
        assert w[i] == w2[i - |w1|] && w[j] == w2[j - |w1|];
      } else if i >= |w1| {
        assert w[i] == w2[i - |w1|] && w[j] == w1[j];
        assert w1[j].path in R1 && w2[i - |w1|].path in R2;
        assert IsPrefix(w[j].path, w[i].path);
      }
    }
  }

  /** A single file visit covers the file. */
  lemma CoversFile(t: Tree, c: Path)
    requires c in t && t[c].File?
    ensures Covers(t, {c}, [VisitFile(c)])
  {
    var w := [VisitFile(c)];
    assert w[0].path == c;
  }

  /** Appending the directory's own post-visit to a walk of everything below it. */
  lemma CoversDirectory(t: Tree, d: Path, w: seq<Step>)
    requires d in t && t[d].Directory?
    requires Covers(t, Below(t, d), w)
    ensures Covers(t, Subtree(t, d), w + [PostVisitDirectory(d)])
  {
    var w' := w + [PostVisitDirectory(d)];
    forall p | p in Subtree(t, d) && p != d
      ensures p in Below(t, d)
    {
      assert |p| != |d|;
    }
    assert d[..|d|] == d;
    assert Subtree(t, d) == Below(t, d) + {d};
    assert w'[|w|].path == d;
    forall i | 0 <= i < |w|
      ensures w'[i] == w[i]
    {
    }
    forall p | p in Subtree(t, d)
      ensures exists i :: 0 <= i < |w'| && w'[i].path == p
    {
      if p != d {
        var i :| 0 <= i < |w| && w[i].path == p;
        assert w'[i] == w[i];
      }
    }
  }

  /** The walk of `d` covers `d` and everything below it. */
  lemma {:induction false} WalkDirectoryCovers(t: Tree, d: Path)
    requires ParentsAreDirectories(t) && d in t && t[d].Directory?
    ensures Covers(t, Subtree(t, d), WalkDirectory(t, d))
    decreases Below(t, d), 1, 0
  {
    WalkEntriesCovers(t, d, ChildPaths(t, d));
    BelowIsRegionOfChildren(t, d);
    CoversDirectory(t, d, WalkEntries(t, d, ChildPaths(t, d)));
  }

  /** The walk of the pending entries of `d` covers those entries and
      everything below them. */
  lemma {:induction false} WalkEntriesCovers(t: Tree, d: Path, entries: set<Path>)
    requires ParentsAreDirectories(t) && entries <= ChildPaths(t, d)
    ensures Covers(t, Region(t, entries), WalkEntries(t, d, entries))
    decreases Below(t, d), 0, |entries|
  {
    if entries == {} {
      assert Region(t, entries) == {};
    } else {
      var c := Pick(entries);
      var rest := entries - {c};
      ChildBelowShrinks(t, d, c);
      if t[c].File? {
        NothingBelowFile(t, c);
        CoversFile(t, c);
      } else {
        WalkDirectoryCovers(t, c);
      }
      WalkEntriesCovers(t, d, rest);
      forall a, b | a in Subtree(t, c) && b in Region(t, rest)
        ensures !IsPrefix(a, b) && !IsPrefix(b, a)
      {
        var c' :| c' in rest && IsPrefix(c', b);
        ChildrenUnrelated(t, d, c, c', a, b);
      }
      CoversAppend(t, Subtree(t, c), if t[c].File? then [VisitFile(c)] else WalkDirectory(t, c),
                   Region(t, rest), WalkEntries(t, d, rest));
      RegionSplit(t, entries, c);
    }
  }


  /** A covering trace of the subtree of `d` visits exactly the files strictly below `d`. */
  lemma CoveredFiles(t: Tree, d: Path, w: seq<Step>)
    requires d in t && t[d].Directory?
    requires Covers(t, Subtree(t, d), w)
    ensures forall p :: VisitFile(p) in w <==> p in t && IsStrictPrefix(d, p) && t[p].File?
  {
    forall p | VisitFile(p) in w
      ensures p in t && IsStrictPrefix(d, p) && t[p].File?
    {
      var i :| 0 <= i < |w| && w[i] == VisitFile(p);
      assert w[i].path in Subtree(t, d);
      assert p != d;
    }
    forall p | p in t && IsStrictPrefix(d, p) && t[p].File?
      ensures VisitFile(p) in w
    {
      assert p in Subtree(t, d);
      var i :| 0 <= i < |w| && w[i].path == p;
      assert w[i] == VisitFile(p);
    }
  }

  /** A covering trace of the subtree of `d` post-visits exactly the directories at or below `d`. */
  lemma CoveredDirectories(t: Tree, d: Path, w: seq<Step>)
    requires Covers(t, Subtree(t, d), w)
    ensures forall q :: PostVisitDirectory(q) in w <==> q in t && IsPrefix(d, q) && t[q].Directory?
  {
    forall q | PostVisitDirectory(q) in w
      ensures q in t && IsPrefix(d, q) && t[q].Directory?
    {
      var i :| 0 <= i < |w| && w[i] == PostVisitDirectory(q);
      assert w[i].path in Subtree(t, d);
    }
    forall q | q in t && IsPrefix(d, q) && t[q].Directory?
      ensures PostVisitDirectory(q) in w
    {
      assert q in Subtree(t, d);
      var i :| 0 <= i < |w| && w[i].path == q;
      assert w[i] == PostVisitDirectory(q);
    }
  }

  /** Deleting a directory visits each file below it exactly once, removes
      each directory only after everything below it, and removes the
      directory itself last. */
  lemma WalkOrder(t: Tree, d: Path)
    requires ParentsAreDirectories(t) && d in t && t[d].Directory?
    ensures var w := WalkDirectory(t, d);
            && |w| > 0 && w[|w| - 1] == PostVisitDirectory(d)
            && (forall p :: VisitFile(p) in w <==> p in t && IsStrictPrefix(d, p) && t[p].File?)
            && (forall q :: PostVisitDirectory(q) in w <==> q in t && IsPrefix(d, q) && t[q].Directory?)
            && (forall i, j :: 0 <= i < j < |w| ==> w[i] != w[j])
            && (forall i, j ::
                  (0 <= i < |w| && 0 <= j < |w| && w[j].PostVisitDirectory? && IsStrictPrefix(w[j].path, w[i].path))
                  ==> i < j)
  {
    var w := WalkDirectory(t, d);
    WalkDirectoryCovers(t, d);
    CoveredFiles(t, d, w);
    CoveredDirectories(t, d, w);
  }
}

=== FILE: wrappers.dfy ===
/** Outcomes of the modelled operations: an optional value for Strongbox's
    nullable results, a value-or-exception for operations that either throw
    before changing anything or complete, and a state-and-exception for
    operations that may throw after they have already changed something. */
module Wrappers {

  /** A Java reference that may be `null`. */
  datatype Option<T> = None | Some(value: T)

  /** The exceptions the modelled code lets escape to its caller. */
  datatype Error =
    | NoSuchStorage(storageId: string)        // Configuration.getStorage returned null
    | NoSuchRepository(repositoryId: string)  // Storage.getRepository returned null
    | NotFound(path: string)                  // FileNotFoundException from a strict isArtifact
    | IsDirectory(path: string)               // FileNotFoundException "The artifact path is a directory"
    | NoSuchFile(target: seq<string>)         // NoSuchFileException from Files.delete
    | DirectoryNotEmpty(target: seq<string>)  // DirectoryNotEmptyException from Files.delete

  /** A computation that either throws or yields a value; it supports `:-`. */
  datatype Result<+R> = Success(value: R) | Failure(error: Error) {

    predicate IsFailure() {
      Failure?
    }

    function PropagateFailure<U>(): Result<U>
      requires Failure?
    {
      Failure(error)
    }

    function Extract(): R
      requires Success?
    {
      value
    }
  }

  /** A computation over a mutable store: it completes, or it throws, and in
      both cases `state` is the store as it stands afterwards, since an
      exception does not undo the changes made before it. */
  datatype Outcome<S> = Done(state: S) | Raised(error: Error, state: S)
}
